=== FILE: README.md ===
# Scatter chart option compiler, modelled in Dafny

This project models `transformProps` of the ECharts scatter plugin together
with the pure builders in `transforms.ts`. The function takes:

- the chart's form data (merged with its defaults);
- the rows of the first query;
- a colour function.

It compiles them into a declarative plotting description:

- a source layer of positional tuples `[x, y, size|null, name…]`;
- the groups, in first-seen order;
- one scatter series per group, plus an optional `Regression` line series;
- dataset transform layers: one `filter` per group, or one `ecStat:clustering`
  layer in hierarchical k-means raw mode, then an `ecStat:regression` layer
  when regression is shown;
- the legend placement, a piecewise visual map of clusters, a tooltip
  description and the bubble-size rescale carried by every scatter series.

Modules:

- `Values`: cells of a row (`number`, `string`, `null`, absent) and JavaScript
  truthiness and number coercion of a cell.
- `Decimal`: the decimal rendering `${n}` of an integer below 10^21 in magnitude, and its reading back.
- `Distinct`: `Array.from(new Set(xs))`, the distinct elements in first-occurrence order.
- `FormData`: the form data record, its defaults and the merge.
- `Transforms`: the builders of `transforms.ts`.
- `ScatterChart`: `transformProps` itself, split into the steps it performs.
- `ScatterProperties`: properties of the assembled description.

The colour scale is a parameter `colorFn: Cell -> string`. Series are
coloured by `colorFn(Str(name))` and visual-map pieces by `colorFn(Num(i))`,
as the source calls it. `getMetricLabel` is the identity on field names.
JavaScript `NaN`/`Infinity` results are `JsNumber.NotFinite`. A `NaN` bubble
bound is `None`.

Raw mode without entity clustering reads dimension 3 of each tuple from the
entity column, but reads groups from a column named like the fallback series
(`Data`, or `Cluster` in hierarchical clustering). The model reproduces this. `StaleEntityRowsPassNoLayer` shows that
a row whose entity cell names another group then passes no filter layer.
Likewise, in hierarchical clustering the series read their layers exactly when
there is one group, or no group and no regression line
(`HierarchicalAlignmentNeedsOneGroup`). The model
reproduces both behaviours rather than correcting them.

## Model

| member | source | states |
|---|---|---|
| FormData.MergeDefaults | plugins/plugin-chart-scatter/src/Scatter/types.ts:68-82 | a field present in the form data wins; otherwise group-by is empty, every flag is off, regression is `linear`, and legend fields take the shared legend defaults |
| FormData.MergeKeepsExplicitValues | plugins/plugin-chart-scatter/src/Scatter/transformProps.ts:100-104 | the form data spreads last, so merging form data that states every field gives back exactly those values |
| Decimal.NatToString | plugins/plugin-chart-scatter/src/Scatter/transformProps.ts:111-113 | the rendering of a number is a non-empty digit string without a leading zero |
| Decimal.IntToString | plugins/plugin-chart-scatter/src/Scatter/transformProps.ts:111-113 | the rendering starts with `-` exactly for negative numbers |
| Decimal.NatToStringRoundTrip | plugins/plugin-chart-scatter/src/Scatter/transformProps.ts:111-113 | reading the digits of a rendered natural number back gives the number |
| Decimal.IntToStringRoundTrip | plugins/plugin-chart-scatter/src/Scatter/transformProps.ts:111-113 | reading a rendered integer back gives the integer |
| Decimal.IntToStringInjective | plugins/plugin-chart-scatter/src/Scatter/transformProps.ts:111-113 | distinct numbers get distinct names |
| Distinct.FirstIndex | plugins/plugin-chart-scatter/src/Scatter/transformProps.ts:182 | the position found holds the element and no earlier position does |
| Distinct.Dedup | plugins/plugin-chart-scatter/src/Scatter/transformProps.ts:182 | the result is duplicate-free, has exactly the input's elements, and is no longer than the input |
| Distinct.DedupIsFirstOccurrenceOrder | plugins/plugin-chart-scatter/src/Scatter/transformProps.ts:182 | the result orders elements by where each first occurs in the input, with no sorting |
| Distinct.FirstOccurrenceOrderIsUnique | plugins/plugin-chart-scatter/src/Scatter/transformProps.ts:182 | any duplicate-free first-occurrence ordering of the input is the result |
| Distinct.DedupOfConstant | plugins/plugin-chart-scatter/src/Scatter/transformProps.ts:182 | a run of one repeated value collapses to that single value |
| Transforms.TypeName | plugins/plugin-chart-scatter/src/Scatter/transforms.ts:52-114 | each descriptor kind is emitted with its own `type` string |
| Transforms.TypeNameIdentifiesKind | plugins/plugin-chart-scatter/src/Scatter/transforms.ts:52-114 | two descriptors share a `type` string exactly when they are of the same kind |
| Transforms.BuildScatterSeries | plugins/plugin-chart-scatter/src/Scatter/transforms.ts:23-50 | a scatter series with the given name and dataset index, coloured `colorFn(name)`; emphasis `series` exactly when highlighting; label shown per flag; the given symbol size |
| Transforms.BuildScatterTransforms | plugins/plugin-chart-scatter/src/Scatter/transforms.ts:52-60 | one filter per group in input order, filter i keeping `dimension == groups[i]` |
| Transforms.GetRegressionSeries | plugins/plugin-chart-scatter/src/Scatter/transforms.ts:62-79 | a line series named `Regression` with the given dataset index and label flag |
| Transforms.GetRegressionTransform | plugins/plugin-chart-scatter/src/Scatter/transforms.ts:81-94 | type `ecStat:regression`, with method and order passed through unchanged |
| Transforms.GetClusteringTransform | plugins/plugin-chart-scatter/src/Scatter/transforms.ts:96-114 | exactly one layer of type `ecStat:clustering`, with the count passed through, output `single`, dimensions `[0, 1]`, and the cluster index written to the given dimension |
| Transforms.ScaleNumberToBubbleSize | plugins/plugin-chart-scatter/src/Scatter/transforms.ts:116-124 | the result divides the output range in the same proportion as the value divides the input range |
| Transforms.ScaleMapsEndpoints | plugins/plugin-chart-scatter/src/Scatter/transforms.ts:116-124 | the input minimum goes to the output minimum and the input maximum to the output maximum |
| Transforms.ScaleIsMonotone | plugins/plugin-chart-scatter/src/Scatter/transforms.ts:116-124 | over a proper input range and an ordered output range, a larger value never gets a smaller bubble |
| Transforms.ScaleStaysInRange | plugins/plugin-chart-scatter/src/Scatter/transforms.ts:116-124 | a value inside the input range lands inside the output range |
| Transforms.GetLegendProps | plugins/plugin-chart-scatter/src/Scatter/transforms.ts:126-157 | horizontal exactly for top and bottom; show and type pass through; left and bottom pin that edge to 0; right pins right to 0 with top 30 when zoomable, else 0; top pins top to 0 with right 55 when zoomable, else 0 |
| Transforms.LegendFlushAgainstItsEdge | plugins/plugin-chart-scatter/src/Scatter/transforms.ts:139-155 | without zoom the legend sits at offset 0 against the edge it is placed at, and every set offset is 0 |
| ScatterChart.IsAggMode | plugins/plugin-chart-scatter/src/Scatter/transformProps.ts:108 | aggregate mode is the query mode `aggregate` |
| ScatterChart.IsHierarchicalClustering | plugins/plugin-chart-scatter/src/Scatter/transformProps.ts:117 | hierarchical k-means clustering: clustering on, type `hierarchical_kmeans`, raw mode |
| ScatterChart.IsEntityClustering | plugins/plugin-chart-scatter/src/Scatter/transformProps.ts:176 | entity clustering: clustering on, type `cluster_by_entity`, an entity column chosen, raw mode |
| ScatterChart.ClusteringModesExclusive | plugins/plugin-chart-scatter/src/Scatter/transformProps.ts:108-185 | the two clustering kinds exclude each other and neither applies in aggregate mode |
| ScatterChart.XField | plugins/plugin-chart-scatter/src/Scatter/transformProps.ts:123 | the x column: the aggregate x metric in aggregate mode, the raw x column otherwise |
| ScatterChart.YField | plugins/plugin-chart-scatter/src/Scatter/transformProps.ts:124 | the y column: the aggregate y metric in aggregate mode, the raw y column otherwise |
| ScatterChart.SizeField | plugins/plugin-chart-scatter/src/Scatter/transformProps.ts:125 | the size column: the aggregate size metric in aggregate mode, the raw size column otherwise |
| ScatterChart.GetSeriesName | plugins/plugin-chart-scatter/src/Scatter/transformProps.ts:110-121 | a number becomes its decimal string and a string is unchanged; anything else is `Cluster` in hierarchical raw clustering and `Data` otherwise |
| ScatterChart.Groupby | plugins/plugin-chart-scatter/src/Scatter/transformProps.ts:126 | the configured group-by in aggregate mode when non-empty, otherwise the single fallback name |
| ScatterChart.SizeSlot | plugins/plugin-chart-scatter/src/Scatter/transformProps.ts:168 | a truthy size is kept; a falsy one, including 0, becomes `null` |
| ScatterChart.NameCells | plugins/plugin-chart-scatter/src/Scatter/transformProps.ts:161-164 | raw mode always gives one name, read from the entity column; aggregate mode gives one name per group-by column |
| ScatterChart.ProjectRow | plugins/plugin-chart-scatter/src/Scatter/transformProps.ts:165-170 | the tuple is x, y, the size slot, then the name cells |
| ScatterChart.SourceDataSet | plugins/plugin-chart-scatter/src/Scatter/transformProps.ts:160-171 | one tuple per row, in row order, all of equal width |
| ScatterChart.TupleWidth | plugins/plugin-chart-scatter/src/Scatter/transformProps.ts:160-171 | every tuple is wide enough to hold the name slot, dimension 3 |
| ScatterChart.SourceDataSetDimension | plugins/plugin-chart-scatter/src/Scatter/transformProps.ts:173 | the width of the first tuple, or 0 without rows (stated by `ScatterProperties.TupleWidthByMode`) |
| ScatterChart.GroupOf | plugins/plugin-chart-scatter/src/Scatter/transformProps.ts:176-179 | in aggregate mode and in entity clustering, a row's group is the name written into the first name slot of its tuple |
| ScatterChart.AllGroups | plugins/plugin-chart-scatter/src/Scatter/transformProps.ts:175-180 | the group of each row, in row order: the entity column under entity clustering, else the first group-by column |
| ScatterChart.UniqueGroups | plugins/plugin-chart-scatter/src/Scatter/transformProps.ts:182 | duplicate-free, the same groups as the rows, in first-occurrence order |
| ScatterChart.SizeBounds | plugins/plugin-chart-scatter/src/Scatter/transformProps.ts:132-139 | defined exactly when every size is a number or `null` (which reads as 0); the bounds straddle 0 because both reductions start at 0; every size lies within them; a non-zero bound is some row's size |
| ScatterChart.SymbolSizePolicyOf | plugins/plugin-chart-scatter/src/Scatter/transformProps.ts:144-156 | the flat bubble size without metric sizes, otherwise a rescale from the observed bounds to the configured range |
| ScatterChart.SymbolSize | plugins/plugin-chart-scatter/src/Scatter/transformProps.ts:144-156 | the flat size, or a rescale that is finite exactly when the bounds and the point's size are numbers and the observed range is not empty; a finite size divides the configured range in the same proportion as the point's size divides the observed range |
| ScatterChart.ShowLegends | plugins/plugin-chart-scatter/src/Scatter/transformProps.ts:141-142 | hidden in hierarchical raw clustering, otherwise as configured |
| ScatterChart.PieceLabel | plugins/plugin-chart-scatter/src/Scatter/transformProps.ts:190-194 | the label of cluster i is `Cluster - ` followed by the decimal rendering of i + 1 |
| ScatterChart.ClusterPieces | plugins/plugin-chart-scatter/src/Scatter/transformProps.ts:186-197 | one piece per cluster index from 0, none for a non-positive count; piece i is valued i, labelled for i + 1 and coloured `colorFn(i)` |
| ScatterChart.GetVisualMap | plugins/plugin-chart-scatter/src/Scatter/transformProps.ts:184-215 | one piecewise map exactly in hierarchical raw clustering, bound to the given dimension and to series 0, ranging over 0 to the cluster count; none otherwise |
| ScatterChart.ScatterSeriesOf | plugins/plugin-chart-scatter/src/Scatter/transformProps.ts:217-219 | series i shows group i and reads layer i + 1 |
| ScatterChart.ScatterTransformsOf | plugins/plugin-chart-scatter/src/Scatter/transformProps.ts:221-224 | one clustering layer in hierarchical raw clustering, otherwise one filter per group on dimension 3 |
| ScatterChart.SeriesOf | plugins/plugin-chart-scatter/src/Scatter/transformProps.ts:226-229 | the scatter series unchanged, followed by the regression series exactly when regression is shown |
| ScatterChart.TransformsOf | plugins/plugin-chart-scatter/src/Scatter/transformProps.ts:231-234 | the scatter layers unchanged, followed by the regression layer exactly when regression is shown |
| ScatterChart.Dataset | plugins/plugin-chart-scatter/src/Scatter/transformProps.ts:278-283 | the source layer first, then each transform in order |
| ScatterChart.FormatTooltip | plugins/plugin-chart-scatter/src/Scatter/transformProps.ts:239-254 | empty for a payload of several series; for one point: its name components, x and y under their field names, and the size only when sizes come from the data |
| ScatterChart.BuildOption | plugins/plugin-chart-scatter/src/Scatter/transformProps.ts:256-284 | one series per group plus regression; the source layer first; legend visibility and visual map as configured |
| ScatterChart.TransformProps | plugins/plugin-chart-scatter/src/Scatter/transformProps.ts:286-291 | form data, width and height pass through; the options are compiled from the merged configuration |
| ScatterProperties.SourceLayerFollowsRows | plugins/plugin-chart-scatter/src/Scatter/transformProps.ts:160-171 | one tuple per row in row order; x and y read from the row; the size slot is `null` exactly when the size is falsy, else the size |
| ScatterProperties.TupleFollowsRow | plugins/plugin-chart-scatter/src/Scatter/transformProps.ts:165-170 | the tuple of row i has the common width, x and y read from the row, and a size slot that is `null` exactly when the size is falsy |
| ScatterProperties.TupleWidthByMode | plugins/plugin-chart-scatter/src/Scatter/transformProps.ts:123-173 | tuples are 4 wide in raw mode and 3 + the group-by length in aggregate mode; the recorded dimension is that width, or 0 without rows |
| ScatterProperties.TupleNameIsGroup | plugins/plugin-chart-scatter/src/Scatter/transformProps.ts:160-180 | in aggregate mode and in entity clustering, dimension 3 of a tuple is the group its row was discovered under |
| ScatterProperties.SeriesForLayout | plugins/plugin-chart-scatter/src/Scatter/transformProps.ts:217-229 | one scatter series per group, with the regression series last when shown |
| ScatterProperties.DatasetForLayout | plugins/plugin-chart-scatter/src/Scatter/transformProps.ts:221-234 | the source, then a clustering layer or the filters in group order, then the regression layer exactly when shown |
| ScatterProperties.AlignedOutsideHierarchical | plugins/plugin-chart-scatter/src/Scatter/transformProps.ts:217-234 | every series reads a layer that exists, and each scatter series reads the filter for its own name |
| ScatterProperties.SeriesAt | plugins/plugin-chart-scatter/src/Scatter/transformProps.ts:217-229 | series k is the scatter series of group k reading layer k + 1, or, just after the groups, the `Regression` line series |
| ScatterProperties.LayerAt | plugins/plugin-chart-scatter/src/Scatter/transformProps.ts:221-234 | outside hierarchical clustering, layer k is the filter for group k - 1, or, after the filters, the regression layer |
| ScatterProperties.SeriesReadsItsLayer | plugins/plugin-chart-scatter/src/Scatter/transformProps.ts:217-234 | outside hierarchical clustering, series k reads layer k + 1, which exists, is a regression layer exactly for the line series, and is the series' own filter otherwise |
| ScatterProperties.GroupSeriesReadsItsFilter | plugins/plugin-chart-scatter/src/Scatter/transformProps.ts:217-224 | the scatter series of group k reads layer k + 1, the filter for its own name |
| ScatterProperties.RegressionSeriesReadsItsLayer | plugins/plugin-chart-scatter/src/Scatter/transformProps.ts:226-234 | the regression series reads the regression layer placed after the filters |
| ScatterProperties.AlignedInHierarchical | plugins/plugin-chart-scatter/src/Scatter/transformProps.ts:217-234 | with a single clustering layer, the series read their layers exactly when there is one group, or no group and no regression |
| ScatterProperties.SeriesLayout | plugins/plugin-chart-scatter/src/Scatter/transformProps.ts:217-229 | scatter series i is named after group i, reads layer i + 1 and is coloured by its name; the regression series exists exactly when shown and is last, reading the layer after the scatter layers |
| ScatterProperties.SeriesNamesDistinct | plugins/plugin-chart-scatter/src/Scatter/transformProps.ts:182-219 | no two scatter series share a name |
| ScatterProperties.DatasetLayout | plugins/plugin-chart-scatter/src/Scatter/transformProps.ts:221-283 | source layer first; then one clustering layer or one filter on dimension 3 per group in group order; regression last exactly when shown |
| ScatterProperties.SeriesAlignedWithLayers | plugins/plugin-chart-scatter/src/Scatter/transformProps.ts:217-283 | outside hierarchical clustering every series reads a layer that exists, and each scatter series reads the filter for its own name |
| ScatterProperties.HierarchicalAlignmentNeedsOneGroup | plugins/plugin-chart-scatter/src/Scatter/transformProps.ts:217-283 | in hierarchical clustering the series read their layers exactly when there is one group, or no group and no regression |
| ScatterProperties.HierarchicalSingleGroup | plugins/plugin-chart-scatter/src/Scatter/transformProps.ts:117-182 | with rows and no `Cluster` column, hierarchical clustering discovers the single group `Cluster` |
| ScatterProperties.FilterLayersOfName | plugins/plugin-chart-scatter/src/Scatter/transformProps.ts:221-234 | a tuple named after a group passes exactly one layer k, and series k - 1, which reads it, bears that group's name |
| ScatterProperties.OwnFilterKeeps | plugins/plugin-chart-scatter/src/Scatter/transformProps.ts:217-224 | the filter of group i keeps every tuple named after group i, and series i bears that name |
| ScatterProperties.KeptOnlyByOwnGroup | plugins/plugin-chart-scatter/src/Scatter/transformProps.ts:221-224 | a layer that keeps a tuple named `name` is the filter of a group equal to `name` |
| ScatterProperties.EveryRowInExactlyOneFilter | plugins/plugin-chart-scatter/src/Scatter/transformProps.ts:160-234 | in aggregate mode and entity clustering each row's tuple passes exactly one layer k, and series k - 1 is named after the row's group |
| ScatterProperties.NoLayerKeepsOtherNames | plugins/plugin-chart-scatter/src/Scatter/transformProps.ts:221-234 | a tuple naming no group passes no layer |
| ScatterProperties.StaleEntityRowsPassNoLayer | plugins/plugin-chart-scatter/src/Scatter/transformProps.ts:160-180 | in raw mode without entity clustering and without a `Data` column, the only group is `Data`, and a row whose entity cell names anything else passes no layer |
| ScatterProperties.HierarchicalVisualMap | plugins/plugin-chart-scatter/src/Scatter/transformProps.ts:184-215 | legend hidden; one visual map with one piece per cluster, piece i valued i and labelled for cluster i + 1; bound to series 0 and to the dimension the clustering layer writes, which is 4 when there are rows |
| ScatterProperties.NoVisualMapOtherwise | plugins/plugin-chart-scatter/src/Scatter/transformProps.ts:141-215 | outside hierarchical clustering there is no visual map and the legend follows its setting |
| ScatterProperties.PieceLabelsDistinct | plugins/plugin-chart-scatter/src/Scatter/transformProps.ts:186-197 | cluster labels are pairwise distinct |
| ScatterProperties.PieceLabelInjective | plugins/plugin-chart-scatter/src/Scatter/transformProps.ts:190-194 | different clusters get different piece labels |
| ScatterProperties.NumericSeriesNameReadsBack | plugins/plugin-chart-scatter/src/Scatter/transformProps.ts:111-113 | a numeric group value is named by a string that reads back as that number |
| ScatterProperties.FlatBubbleSize | plugins/plugin-chart-scatter/src/Scatter/transformProps.ts:144-147 | without metric sizes every point of every scatter series gets the flat bubble size |
| ScatterProperties.EmptyObservedRange | plugins/plugin-chart-scatter/src/Scatter/transformProps.ts:132-156 | the observed range is empty only when every size is 0 or `null`, and then every metric-driven size is non-finite |
| ScatterProperties.RescaledSizeInRange | plugins/plugin-chart-scatter/src/Scatter/transformProps.ts:144-156 | a point inside a proper observed range gets a finite size inside the configured range, with the ends going to the ends |
| ScatterProperties.SizeSlotValue | plugins/plugin-chart-scatter/src/Scatter/transformProps.ts:168 | the size slot reads as the row's numeric size, `null` reading as 0 |
| ScatterProperties.BubbleSizesWithinConfiguredRange | plugins/plugin-chart-scatter/src/Scatter/transformProps.ts:132-171 | every point gets a bubble inside the configured range; the row holding the observed maximum gets the maximum bubble, and the row holding the minimum the minimum bubble |
| ScatterProperties.TooltipOfSourcePoint | plugins/plugin-chart-scatter/src/Scatter/transformProps.ts:239-277 | outside hierarchical clustering, a hovered point shows its row's name cells, x and y under the field names, and its size slot exactly when sizes come from the data |
| ScatterProperties.TooltipOfClusteredPoint | plugins/plugin-chart-scatter/src/Scatter/transformProps.ts:221-254 | in hierarchical clustering the hovered tuple carries the cluster index at dimension 4, so the tooltip lists the row's name followed by that index, with x and y from the row |
| ScatterProperties.DefaultRegressionIsLinear | plugins/plugin-chart-scatter/src/Scatter/types.ts:79 | with regression shown but no method given, the last layer is a linear regression with the configured order, read by the last series |

## Left out

- Form data values that the source reads with `parseInt` are integers here. A `NaN` from an unparsable string is not modelled.
- Cell values are integers or strings. Floating-point sizes and coordinates, and IEEE rounding, are not modelled.
- ScatterChart.SizeBounds: treats a string size as `NaN`. JavaScript's `Math.min`/`Math.max` would coerce a numeric string such as `"5"` to a number.
- ScatterChart.SymbolSize: inherits the string-as-`NaN` reading, so a numeric-string size gives a non-finite size where JavaScript would rescale it.
- Decimal.IntToString: writes every integer in plain digits. JavaScript's `${n}` switches to exponent notation (`1e+21`) from magnitude 10^21 on, so series names and labels of such numbers differ.
- Transforms.ScaleNumberToBubbleSize: requires a non-empty input range. The source divides by zero there, and `ScatterChart.SymbolSize` models that case as a non-finite size.
- The HTML layout of the tooltip and the axis number formatters (`getNumberFormatter`) are not modelled. Only the tooltip content is modelled.
- The grid (`defaultGrid`) and the values of the shared legend defaults are defined in files that are not part of this model. The legend defaults are a parameter of the merge.
- Cosmetic constants with no logic are not modelled:
  - `animation: false`;
  - the label formatter, margin and position;
  - the regression series' symbol, symbol size, smoothing, label layout and `encode`;
  - the `type: 'piecewise'` tag.
- `registerTransform` and the regression and k-means algorithms of `echarts-stat` are foreign code. Only their descriptors are modelled.
- The colour scale's registry state is not modelled. The scale is a parameter.
- Only the first query's rows are read, as in the source.
- `buildQuery.ts`, the control panel, `controls.tsx`, the type declarations and the build script are not part of this model.

=== FILE: decimal.dfy ===
/**
  The decimal rendering of an integer, as produced by a template literal
  `${n}` for an integral JavaScript number of magnitude below 10^21 (from
  10^21 on JavaScript switches to exponent notation), and the value a decimal
  numeral denotes. The two are inverse to each other, which makes the
  rendering injective: distinct numbers never share a series name or a
  visual-map label.
 */
module Decimal {
  import opened Values

  predicate IsDigit(ch: char) {
    '0' <= ch <= '9'
  }

  predicate AllDigits(s: string) {
    forall i :: 0 <= i < |s| ==> IsDigit(s[i])
  }

  function DigitChar(d: nat): (ch: char)
    requires d < 10
    ensures IsDigit(ch)
    ensures (ch as int) - ('0' as int) == d
  {
    (('0' as int) + d) as char
  }

  /** Decimal digits of `n`, most significant first, without leading zeros. */
  function NatToString(n: nat): (s: string)
    ensures |s| >= 1
    ensures AllDigits(s)
    ensures s[0] == '0' ==> n == 0 && s == "0"
  {
    if n < 10 then [DigitChar(n)] else NatToString(n / 10) + [DigitChar(n % 10)]
  }

  /** `${n}` for an integer `n`: a minus sign for negatives, then the digits. */
  function IntToString(n: int): (s: string)
    ensures |s| >= 1
    ensures n < 0 <==> s[0] == '-'
    ensures n >= 0 ==> AllDigits(s)
  {
    if n < 0 then "-" + NatToString(-n) else NatToString(n)
  }

  /** The number a string of digits denotes, read most significant first. */
  function DigitsValue(s: string): nat
    requires AllDigits(s)
  {
    if |s| == 0 then 0
    else DigitsValue(s[..|s| - 1]) * 10 + ((s[|s| - 1] as int) - ('0' as int))
  }

  /** The integer an optionally signed decimal numeral denotes, if it is one. */
  function DecimalValue(s: string): Option<int> {
    if |s| >= 2 && s[0] == '-' && AllDigits(s[1..]) then Some(0 - DigitsValue(s[1..]) as int)
    else if |s| >= 1 && AllDigits(s) then Some(DigitsValue(s))
    else None
  }

  lemma {:induction false} NatToStringRoundTrip(n: nat)
    ensures DigitsValue(NatToString(n)) == n
  {
    if n >= 10 {
      var s := NatToString(n);
      var front := NatToString(n / 10);
      assert s == front + [DigitChar(n % 10)];
      assert s[..|s| - 1] == front;
      NatToStringRoundTrip(n / 10);
    }
  }

  /** Reading back the rendering of `n` yields `n`. */
  lemma IntToStringRoundTrip(n: int)
    ensures DecimalValue(IntToString(n)) == Some(n)
  {
    var s := IntToString(n);
    if n < 0 {
      assert s[1..] == NatToString(-n);
      NatToStringRoundTrip(-n);
    } else {
      NatToStringRoundTrip(n);
    }
  }

  /** Distinct integers render to distinct strings. */
  lemma IntToStringInjective(a: int, b: int)
    ensures IntToString(a) == IntToString(b) ==> a == b
  {
    IntToStringRoundTrip(a);
    IntToStringRoundTrip(b);
  }
}

=== FILE: distinct.dfy ===
/**
  `Array.from(new Set(xs).values())`: the distinct elements of a sequence
  in first-occurrence order. A JavaScript `Set` remembers insertion order
  and ignores re-insertions, so the result is never sorted.
 */
module Distinct {

  predicate NoDuplicates(s: seq<string>) {
    forall i, j :: 0 <= i < j < |s| ==> s[i] != s[j]
  }

  /** Position of the first occurrence of `x` in `xs`. */
  function FirstIndex(xs: seq<string>, x: string): (k: nat)
    requires x in xs
    ensures k < |xs| && xs[k] == x
    ensures x !in xs[..k]
  {
    if xs[0] == x then 0
    else
      var k := 1 + FirstIndex(xs[1..], x);
      assert xs[..k] == [xs[0]] + xs[1..][..k - 1];
      k
  }

  /**
    Independent description of the result: duplicate-free, the same
    elements as `xs`, and ordered by where each element first occurs.
   */
  ghost predicate IsFirstOccurrenceOrder(xs: seq<string>, r: seq<string>) {
    && NoDuplicates(r)
    && (forall x :: x in r <==> x in xs)
    && (forall i, j :: 0 <= i < j < |r| ==> FirstIndex(xs, r[i]) < FirstIndex(xs, r[j]))
  }

  /** Inserting the elements of `xs` into an empty `Set`, in order, and reading it back. */
  function Dedup(xs: seq<string>): (r: seq<string>)
    ensures NoDuplicates(r)
    ensures forall x :: x in r <==> x in xs
    ensures |r| <= |xs|
    decreases |xs|
  {
    if |xs| == 0 then []
    else
      var d := Dedup(xs[..|xs| - 1]);
      var last := xs[|xs| - 1];
      assert forall x :: x in xs <==> x in xs[..|xs| - 1] || x == last by {
        assert xs == xs[..|xs| - 1] + [last];
      }
      if last in d then d else d + [last]
  }

  lemma FirstIndexOfPrefix(xs: seq<string>, n: nat, x: string)
    requires n <= |xs|
    requires x in xs[..n]
    ensures FirstIndex(xs, x) == FirstIndex(xs[..n], x)
  {
    var k := FirstIndex(xs[..n], x);
    var m := FirstIndex(xs, x);
    assert xs[..n][..k] == xs[..k];
  }

  /** `Dedup` keeps elements in first-occurrence order. */
  lemma {:induction false} DedupIsFirstOccurrenceOrder(xs: seq<string>)
    ensures IsFirstOccurrenceOrder(xs, Dedup(xs))
    decreases |xs|
  {
    if |xs| > 0 {
      var n := |xs| - 1;
      var pre := xs[..n];
      var last := xs[n];
      var d := Dedup(pre);
      DedupIsFirstOccurrenceOrder(pre);
      assert xs == pre + [last];
      forall y | y in d
        ensures FirstIndex(xs, y) == FirstIndex(pre, y)
      {
        FirstIndexOfPrefix(xs, n, y);
      }
      if last !in d {
        var r := Dedup(xs);
        assert r == d + [last];
        assert last !in pre;
        assert FirstIndex(xs, last) == n;
        forall i, j | 0 <= i < j < |r|
          ensures FirstIndex(xs, r[i]) < FirstIndex(xs, r[j])
        {
          assert r[i] == d[i];
          assert r[i] in pre;
          if j < |d| {
            assert r[j] == d[j];
          } else {
            assert r[j] == last;
          }
        }
      }
    }
  }

  /** When the last element repeats an earlier one, `r` also orders the prefix. */
  lemma OrderOfRepeatedLast(xs: seq<string>, r: seq<string>)
    requires |xs| > 0 && xs[|xs| - 1] in xs[..|xs| - 1]
    requires IsFirstOccurrenceOrder(xs, r)
    ensures IsFirstOccurrenceOrder(xs[..|xs| - 1], r)
  {
    var n := |xs| - 1;
    var pre := xs[..n];
    assert xs == pre + [xs[n]];
    assert forall x :: x in xs <==> x in pre;
    forall y | y in r
      ensures FirstIndex(xs, y) == FirstIndex(pre, y)
    {
      FirstIndexOfPrefix(xs, n, y);
    }
  }

  /** A new last element first occurs at the end. */
  lemma FirstIndexOfNewLast(xs: seq<string>)
    requires |xs| > 0 && xs[|xs| - 1] !in xs[..|xs| - 1]
    ensures FirstIndex(xs, xs[|xs| - 1]) == |xs| - 1
  {
    assert forall j :: 0 <= j < |xs| - 1 ==> xs[j] == xs[..|xs| - 1][j];
  }

  /** When the last element of `xs` is new, it is the last element of `r`. */
  lemma NewLastClosesOrder(xs: seq<string>, r: seq<string>)
    requires |xs| > 0 && xs[|xs| - 1] !in xs[..|xs| - 1]
    requires IsFirstOccurrenceOrder(xs, r)
    ensures |r| > 0 && r[|r| - 1] == xs[|xs| - 1]
  {
    var last := xs[|xs| - 1];
    assert last in xs;
    assert last in r;
    var p :| 0 <= p < |r| && r[p] == last;
    FirstIndexOfNewLast(xs);
    var q := |r| - 1;
    assert r[q] in r;
    assert FirstIndex(xs, r[q]) >= FirstIndex(xs, r[p]);
  }

  /** When the last element is new, it closes `r`, and the rest of `r` orders the prefix. */
  lemma OrderOfNewLast(xs: seq<string>, r: seq<string>)
    requires |xs| > 0 && xs[|xs| - 1] !in xs[..|xs| - 1]
    requires IsFirstOccurrenceOrder(xs, r)
    ensures |r| > 0 && r == r[..|r| - 1] + [xs[|xs| - 1]]
    ensures IsFirstOccurrenceOrder(xs[..|xs| - 1], r[..|r| - 1])
  {
    var n := |xs| - 1;
    var pre := xs[..n];
    var last := xs[n];
    NewLastClosesOrder(xs, r);
    var front := r[..|r| - 1];
    assert r == front + [last];
    FrontElementsInPrefix(xs, r);
    forall y | y in front
      ensures y in pre && FirstIndex(xs, y) == FirstIndex(pre, y)
    {
      var i :| 0 <= i < |front| && front[i] == y;
      assert r[i] == y;
    }
    forall x | x in pre
      ensures x in front
    {
      assert x in xs;
      assert x in r;
    }
    forall i, j | 0 <= i < j < |front|
      ensures FirstIndex(pre, front[i]) < FirstIndex(pre, front[j])
    {
      assert front[i] == r[i] && front[j] == r[j];
    }
  }

  /** Every element before the new last one lies in the prefix, where it first occurs as in `xs`. */
  lemma FrontElementsInPrefix(xs: seq<string>, r: seq<string>)
    requires |xs| > 0 && IsFirstOccurrenceOrder(xs, r)
    requires |r| > 0 && r[|r| - 1] == xs[|xs| - 1]
    ensures forall i :: 0 <= i < |r| - 1 ==>
      r[i] in xs[..|xs| - 1] && FirstIndex(xs, r[i]) == FirstIndex(xs[..|xs| - 1], r[i])
  {
    forall i | 0 <= i < |r| - 1
      ensures r[i] in xs[..|xs| - 1] && FirstIndex(xs, r[i]) == FirstIndex(xs[..|xs| - 1], r[i])
    {
      assert r[i] != r[|r| - 1];
      assert r[i] in r;
      NotLastInPrefix(xs, r[i]);
    }
  }

  /** An element of `xs` other than its last one occurs, first, in the prefix. */
  lemma NotLastInPrefix(xs: seq<string>, y: string)
    requires y in xs && y != xs[|xs| - 1]
    ensures y in xs[..|xs| - 1]
    ensures FirstIndex(xs, y) == FirstIndex(xs[..|xs| - 1], y)
  {
    var n := |xs| - 1;
    var j :| 0 <= j < |xs| && xs[j] == y;
    assert xs[..n][j] == y;
    FirstIndexOfPrefix(xs, n, y);
  }

  /** The head of a non-empty sequence is one of its elements. */
  lemma HeadIsMember(r: seq<string>)
    ensures |r| > 0 ==> r[0] in r
  {
  }

  /** Any first-occurrence ordering of `xs` is `Dedup(xs)`: the order is fully determined. */
  lemma {:induction false} FirstOccurrenceOrderIsUnique(xs: seq<string>, r: seq<string>)
    requires IsFirstOccurrenceOrder(xs, r)
    ensures r == Dedup(xs)
    decreases |xs|
  {
    if |xs| == 0 {
      HeadIsMember(r);
    } else {
      var n := |xs| - 1;
      var pre := xs[..n];
      var last := xs[n];
      assert xs == pre + [last];
      if last in pre {
        OrderOfRepeatedLast(xs, r);
        FirstOccurrenceOrderIsUnique(pre, r);
        assert last in Dedup(pre);
      } else {
        OrderOfNewLast(xs, r);
        FirstOccurrenceOrderIsUnique(pre, r[..|r| - 1]);
        assert last !in Dedup(pre);
      }
    }
  }

  /** A run of one repeated value collapses to that value alone. */
  lemma {:induction false} DedupOfConstant(xs: seq<string>, x: string)
    requires forall i :: 0 <= i < |xs| ==> xs[i] == x
    ensures Dedup(xs) == if |xs| == 0 then [] else [x]
    decreases |xs|
  {
    if |xs| > 0 {
      DedupOfConstant(xs[..|xs| - 1], x);
    }
  }
}

=== FILE: form_data.dfy ===
/**
  The chart's configuration record (`EchartsScatterFormData`) and the
  defaults it is merged with before the transform reads it.

  Form data as stored may leave a field out; such fields are `Option`s
  here and `None` means "absent". Fields the defaults do not cover keep
  their JavaScript falsy reading: an absent string is `""`, an absent
  flag is `false`. Metric and column selectors are plain field names,
  since the metric-label projection is the identity on names.
 */
module FormData {
  import opened Values

  datatype QueryMode = Aggregate | Raw

  datatype ClusterType = ClusterByEntity | HierarchicalKmeans

  datatype RegressionMethod = Linear | Exponential | Logarithmic | Polynomial

  datatype LegendOrientation = Top | Bottom | Left | Right

  datatype LegendType = Scroll | Plain

  /** The chart's form data as the caller hands it over. */
  datatype ScatterFormData = ScatterFormData(
    groupby: Option<seq<string>>,
    legendOrientation: Option<LegendOrientation>,
    legendType: Option<LegendType>,
    showLegend: Option<bool>,
    showLabels: Option<bool>,
    showHighlighting: Option<bool>,
    showRegression: Option<bool>,
    showRegressionLabel: Option<bool>,
    regression: Option<RegressionMethod>,
    useMetricForBubbleSize: Option<bool>,
    x: string,
    xRaw: string,
    y: string,
    yRaw: string,
    size: string,
    sizeRaw: string,
    bubbleSize: int,
    minBubbleSize: int,
    maxBubbleSize: int,
    regressionOrder: int,
    clusterEntity: string,
    enableClustering: bool,
    clusterType: Option<ClusterType>,
    amountOfKmeansCluster: int,
    queryMode: Option<QueryMode>,
    xAxisTitle: string,
    yAxisTitle: string
  )

  /**
    The legend defaults every ECharts plugin shares. Their values are
    defined outside this chart, so the merge takes them as a parameter.
   */
  datatype LegendDefaults = LegendDefaults(
    legendOrientation: LegendOrientation,
    legendType: LegendType,
    showLegend: bool
  )

  /** The configuration after the defaults have been filled in. */
  datatype Config = Config(
    groupby: seq<string>,
    legendOrientation: LegendOrientation,
    legendType: LegendType,
    showLegend: bool,
    showLabels: bool,
    showHighlighting: bool,
    showRegression: bool,
    showRegressionLabel: bool,
    regression: RegressionMethod,
    useMetricForBubbleSize: bool,
    x: string,
    xRaw: string,
    y: string,
    yRaw: string,
    size: string,
    sizeRaw: string,
    bubbleSize: int,
    minBubbleSize: int,
    maxBubbleSize: int,
    regressionOrder: int,
    clusterEntity: string,
    enableClustering: bool,
    clusterType: Option<ClusterType>,
    amountOfKmeansCluster: int,
    queryMode: Option<QueryMode>,
    xAxisTitle: string,
    yAxisTitle: string
  )

  function Or<T>(given: Option<T>, default: T): T {
    match given
    case Some(v) => v
    case None => default
  }

  /**
    `{...DEFAULT_LEGEND_FORM_DATA, ...DEFAULT_FORM_DATA, ...formData}`:
    a field present in the form data wins, otherwise the chart default
    applies (empty group-by, every flag off, linear regression), and the
    legend fields fall back to the shared legend defaults.
   */
  function MergeDefaults(fd: ScatterFormData, legend: LegendDefaults): (c: Config)
    ensures fd.groupby.Some? ==> c.groupby == fd.groupby.value
    ensures fd.groupby.None? ==> c.groupby == []
    ensures fd.regression.Some? ==> c.regression == fd.regression.value
    ensures fd.regression.None? ==> c.regression == Linear
    ensures c.legendOrientation == Or(fd.legendOrientation, legend.legendOrientation)
    ensures c.legendType == Or(fd.legendType, legend.legendType)
    ensures c.showLegend == Or(fd.showLegend, legend.showLegend)
    ensures c.showLabels <==> fd.showLabels == Some(true)
    ensures c.showHighlighting <==> fd.showHighlighting == Some(true)
    ensures c.showRegression <==> fd.showRegression == Some(true)
    ensures c.showRegressionLabel <==> fd.showRegressionLabel == Some(true)
    ensures c.useMetricForBubbleSize <==> fd.useMetricForBubbleSize == Some(true)
    ensures c.x == fd.x && c.xRaw == fd.xRaw && c.y == fd.y && c.yRaw == fd.yRaw
    ensures c.size == fd.size && c.sizeRaw == fd.sizeRaw
    ensures c.bubbleSize == fd.bubbleSize && c.minBubbleSize == fd.minBubbleSize
    ensures c.maxBubbleSize == fd.maxBubbleSize && c.regressionOrder == fd.regressionOrder
    ensures c.clusterEntity == fd.clusterEntity && c.enableClustering == fd.enableClustering
    ensures c.clusterType == fd.clusterType && c.amountOfKmeansCluster == fd.amountOfKmeansCluster
    ensures c.queryMode == fd.queryMode
    ensures c.xAxisTitle == fd.xAxisTitle && c.yAxisTitle == fd.yAxisTitle
  {
    Config(
      groupby := Or(fd.groupby, []),
      legendOrientation := Or(fd.legendOrientation, legend.legendOrientation),
      legendType := Or(fd.legendType, legend.legendType),
      showLegend := Or(fd.showLegend, legend.showLegend),
      showLabels := Or(fd.showLabels, false),
      showHighlighting := Or(fd.showHighlighting, false),
      showRegression := Or(fd.showRegression, false),
      showRegressionLabel := Or(fd.showRegressionLabel, false),
      regression := Or(fd.regression, Linear),
      useMetricForBubbleSize := Or(fd.useMetricForBubbleSize, false),
      x := fd.x,
      xRaw := fd.xRaw,
      y := fd.y,
      yRaw := fd.yRaw,
      size := fd.size,
      sizeRaw := fd.sizeRaw,
      bubbleSize := fd.bubbleSize,
      minBubbleSize := fd.minBubbleSize,
      maxBubbleSize := fd.maxBubbleSize,
      regressionOrder := fd.regressionOrder,
      clusterEntity := fd.clusterEntity,
      enableClustering := fd.enableClustering,
      clusterType := fd.clusterType,
      amountOfKmeansCluster := fd.amountOfKmeansCluster,
      queryMode := fd.queryMode,
      xAxisTitle := fd.xAxisTitle,
      yAxisTitle := fd.yAxisTitle
    )
  }

  /** The form data that states every defaulted field explicitly, as `c` has it. */
  function Explicit(c: Config): ScatterFormData {
    ScatterFormData(
      Some(c.groupby), Some(c.legendOrientation), Some(c.legendType), Some(c.showLegend),
      Some(c.showLabels), Some(c.showHighlighting), Some(c.showRegression),
      Some(c.showRegressionLabel), Some(c.regression), Some(c.useMetricForBubbleSize),
      c.x, c.xRaw, c.y, c.yRaw, c.size, c.sizeRaw,
      c.bubbleSize, c.minBubbleSize, c.maxBubbleSize, c.regressionOrder,
      c.clusterEntity, c.enableClustering, c.clusterType, c.amountOfKmeansCluster,
      c.queryMode, c.xAxisTitle, c.yAxisTitle)
  }

  /** Defaults never override a value the form data states: merging is a left inverse of `Explicit`. */
  lemma MergeKeepsExplicitValues(c: Config, legend: LegendDefaults)
    ensures MergeDefaults(Explicit(c), legend) == c
  {
  }
}

=== FILE: scatter_properties.dfy ===
/**
  Properties of the assembled plotting description: the shape of the
  source layer, the alignment between series and the dataset layers they
  read, first-seen group order, the clustering visual map and legend, and
  the bubble-size rescale as seen by each point.
 */
module ScatterProperties {
  import opened Values
  import opened Decimal
  import opened Distinct
  import opened FormData
  import opened Transforms
  import opened ScatterChart

  /**
    The rendering engine's `filter` semantics: transform layer k keeps
    tuple `t` when it is a filter and `t[dimension] == eq`.
   */
  predicate LayerKeeps(dataset: seq<DatasetLayer>, k: int, t: seq<Cell>) {
    && 1 <= k < |dataset|
    && dataset[k].TransformLayer?
    && dataset[k].transform.Filter?
    && 0 <= dataset[k].transform.dimension < |t|
    && t[dataset[k].transform.dimension] == Str(dataset[k].transform.eq)
  }

  /** Series k reads a transform layer that exists: a filter or clustering layer for a scatter series, the regression layer for the line series. */
  predicate ReadsItsLayer(series: seq<Series>, dataset: seq<DatasetLayer>, k: int)
    requires 0 <= k < |series|
  {
    var d := series[k].datasetIndex;
    && 1 <= d < |dataset|
    && dataset[d].TransformLayer?
    && (series[k].ScatterSeries? <==> !dataset[d].transform.Regression?)
  }

  predicate SeriesReadTheirLayers(series: seq<Series>, dataset: seq<DatasetLayer>) {
    forall k :: 0 <= k < |series| ==> ReadsItsLayer(series, dataset, k)
  }

  /** When series k is a scatter series, the layer it reads is the filter for its own name. */
  predicate ReadsOwnFilter(series: seq<Series>, dataset: seq<DatasetLayer>, k: int)
    requires 0 <= k < |series|
  {
    var d := series[k].datasetIndex;
    series[k].ScatterSeries? ==> 0 <= d < |dataset| && dataset[d] == TransformLayer(Filter(NameDimension, series[k].name))
  }

  /** Series i exists and is named `name`. */
  predicate SeriesNamed(series: seq<Series>, i: int, name: string) {
    0 <= i < |series| && series[i].name == name
  }

  predicate IsRegressionLayer(layer: DatasetLayer) {
    layer.TransformLayer? && layer.transform.Regression?
  }

  function RegressionCount(c: Config): nat {
    if c.showRegression then 1 else 0
  }

  /* ---------------------------------------------------------------------- */
  /* Source layer                                                            */

  /**
    The source layer has one tuple per row, in row order: x, y, the size or
    `null` when the size is falsy, then the name components.
   */
  lemma SourceLayerFollowsRows(c: Config, rows: seq<Row>, colorFn: Cell -> Color)
    ensures var o := BuildOption(c, rows, colorFn);
      && o.dataset[0].SourceLayer?
      && |o.dataset[0].source| == |rows|
      && forall i :: 0 <= i < |rows| ==>
        var t := o.dataset[0].source[i];
        var size := Lookup(rows[i], SizeField(c));
        && |t| == TupleWidth(c)
        && t[XDimension] == Lookup(rows[i], XField(c))
        && t[YDimension] == Lookup(rows[i], YField(c))
        && (t[BubbleSizeDimension] == Null <==> !IsTruthy(size))
        && (t[BubbleSizeDimension] != Null ==> t[BubbleSizeDimension] == size)
  {
    var o := BuildOption(c, rows, colorFn);
    var src := SourceDataSet(c, rows);
    assert o.dataset[0] == SourceLayer(src);
    forall i | 0 <= i < |rows|
      ensures var t := src[i];
        var size := Lookup(rows[i], SizeField(c));
        && |t| == TupleWidth(c)
        && t[XDimension] == Lookup(rows[i], XField(c))
        && t[YDimension] == Lookup(rows[i], YField(c))
        && (t[BubbleSizeDimension] == Null <==> !IsTruthy(size))
        && (t[BubbleSizeDimension] != Null ==> t[BubbleSizeDimension] == size)
    {
      TupleFollowsRow(c, rows, i);
    }
  }

  /** The tuple of row i: x, y, then the size slot, which is `null` exactly when the size is falsy. */
  lemma TupleFollowsRow(c: Config, rows: seq<Row>, i: int)
    requires 0 <= i < |rows|
    ensures var t := SourceDataSet(c, rows)[i];
      var size := Lookup(rows[i], SizeField(c));
      && |t| == TupleWidth(c)
      && t[XDimension] == Lookup(rows[i], XField(c))
      && t[YDimension] == Lookup(rows[i], YField(c))
      && (t[BubbleSizeDimension] == Null <==> !IsTruthy(size))
      && (t[BubbleSizeDimension] != Null ==> t[BubbleSizeDimension] == size)
  {
    var t := SourceDataSet(c, rows)[i];
    assert t == ProjectRow(c, rows[i]);
    assert t[BubbleSizeDimension] == SizeSlot(Lookup(rows[i], SizeField(c)));
  }

  /**
    All tuples are 4 wide in raw mode and 3 + |group-by| wide in aggregate
    mode, and the recorded dimension is that width, or 0 without rows.
   */
  lemma TupleWidthByMode(c: Config, rows: seq<Row>)
    ensures !IsAggMode(c) ==> TupleWidth(c) == 4
    ensures IsAggMode(c) && |c.groupby| > 0 ==> TupleWidth(c) == 3 + |c.groupby|
    ensures IsAggMode(c) && |c.groupby| == 0 ==> TupleWidth(c) == 4
    ensures SourceDataSetDimension(SourceDataSet(c, rows)) == if |rows| == 0 then 0 else TupleWidth(c)
  {
    if |rows| > 0 {
      assert |SourceDataSet(c, rows)[0]| == TupleWidth(c);
    }
  }

  /**
    In aggregate mode and in entity clustering, dimension 3 of a row's
    tuple is exactly the group that row was discovered under.
   */
  lemma TupleNameIsGroup(c: Config, rows: seq<Row>, i: int)
    requires IsAggMode(c) || IsEntityClustering(c)
    requires 0 <= i < |rows|
    ensures SourceDataSet(c, rows)[i][NameDimension] == Str(GroupOf(c, rows[i]))
  {
    var t := SourceDataSet(c, rows)[i];
    assert t == ProjectRow(c, rows[i]);
    assert t[NameDimension] == NameCells(c, rows[i])[0];
  }

  /* ---------------------------------------------------------------------- */
  /* Series and dataset layers, built from a list of groups                  */

  /** The series list for groups `g`. */
  function SeriesFor(c: Config, g: seq<string>, colorFn: Cell -> Color, policy: SymbolSizePolicy): (ss: seq<Series>)
    ensures |ss| == |g| + RegressionCount(c)
  {
    SeriesOf(c, ScatterSeriesOf(c, g, colorFn, policy))
  }

  /** The dataset layers for source `src` and groups `g`. */
  function DatasetFor(c: Config, g: seq<string>, src: seq<seq<Cell>>, dimension: int): (ds: seq<DatasetLayer>)
    ensures !IsHierarchicalClustering(c) ==> |ds| == 1 + |g| + RegressionCount(c)
    ensures IsHierarchicalClustering(c) ==> |ds| == 2 + RegressionCount(c)
  {
    Dataset(src, TransformsOf(c, ScatterTransformsOf(c, g, dimension)))
  }

  /** Series k for groups `g`: the scatter series of group k, or the regression series after them. */
  lemma SeriesAt(c: Config, g: seq<string>, colorFn: Cell -> Color, policy: SymbolSizePolicy, k: int)
    requires 0 <= k < |g| + RegressionCount(c)
    ensures var ss := SeriesFor(c, g, colorFn, policy);
      && |ss| == |g| + RegressionCount(c)
      && (k < |g| ==> ss[k] == BuildScatterSeries(g[k], k + 1, colorFn, c.showHighlighting, c.showLabels, policy))
      && (k == |g| ==> ss[k] == LineSeries("Regression", |g| + 1, c.showRegressionLabel))
  {
  }

  /** Layer k of the dataset outside hierarchical clustering: the filter of group k - 1, or the regression layer after them. */
  lemma LayerAt(c: Config, g: seq<string>, src: seq<seq<Cell>>, dimension: int, k: int)
    requires !IsHierarchicalClustering(c)
    requires 1 <= k < 1 + |g| + RegressionCount(c)
    ensures var ds := DatasetFor(c, g, src, dimension);
      && |ds| == 1 + |g| + RegressionCount(c)
      && (k <= |g| ==> ds[k] == TransformLayer(Filter(NameDimension, g[k - 1])))
      && (k > |g| ==> ds[k] == TransformLayer(Regression(c.regression, c.regressionOrder)))
  {
  }

  /** The dataset layers in hierarchical clustering: the clustering layer, then the regression layer when shown. */
  lemma HierarchicalLayers(c: Config, g: seq<string>, src: seq<seq<Cell>>, dimension: int)
    requires IsHierarchicalClustering(c)
    ensures var ds := DatasetFor(c, g, src, dimension);
      && |ds| == 2 + RegressionCount(c)
      && ds[1] == TransformLayer(Clustering(c.amountOfKmeansCluster, "single", [0, 1], dimension))
      && (c.showRegression ==> ds[2] == TransformLayer(Regression(c.regression, c.regressionOrder)))
  {
    var st := ScatterTransformsOf(c, g, dimension);
    var ts := TransformsOf(c, st);
    assert ts[0] == st[0];
  }

  lemma SeriesForLayout(c: Config, g: seq<string>, colorFn: Cell -> Color, policy: SymbolSizePolicy)
    ensures var ss := SeriesFor(c, g, colorFn, policy);
      && |ss| == |g| + RegressionCount(c)
      && (forall i :: 0 <= i < |g| ==>
           ss[i] == BuildScatterSeries(g[i], i + 1, colorFn, c.showHighlighting, c.showLabels, policy))
      && (c.showRegression ==> ss[|g|] == LineSeries("Regression", |g| + 1, c.showRegressionLabel))
  {
    var ss := SeriesFor(c, g, colorFn, policy);
    forall i | 0 <= i < |g|
      ensures ss[i] == BuildScatterSeries(g[i], i + 1, colorFn, c.showHighlighting, c.showLabels, policy)
    {
      SeriesAt(c, g, colorFn, policy, i);
    }
    if c.showRegression {
      SeriesAt(c, g, colorFn, policy, |g|);
    }
  }

  lemma DatasetForLayout(c: Config, g: seq<string>, src: seq<seq<Cell>>, dimension: int)
    ensures var ds := DatasetFor(c, g, src, dimension);
      && ds[0] == SourceLayer(src)
      && (!IsHierarchicalClustering(c) ==>
           && |ds| == 1 + |g| + RegressionCount(c)
           && forall i :: 0 <= i < |g| ==> ds[i + 1] == TransformLayer(Filter(NameDimension, g[i])))
      && (IsHierarchicalClustering(c) ==>
           && |ds| == 2 + RegressionCount(c)
           && ds[1] == TransformLayer(Clustering(c.amountOfKmeansCluster, "single", [0, 1], dimension)))
      && (c.showRegression ==> ds[|ds| - 1] == TransformLayer(Regression(c.regression, c.regressionOrder)))
      && (!c.showRegression ==> forall k :: 1 <= k < |ds| ==> !IsRegressionLayer(ds[k]))
  {
    var ds := DatasetFor(c, g, src, dimension);
    if IsHierarchicalClustering(c) {
      HierarchicalLayers(c, g, src, dimension);
    } else {
      assert |ds| == 1 + |g| + RegressionCount(c);
      forall i | 0 <= i < |g|
        ensures ds[i + 1] == TransformLayer(Filter(NameDimension, g[i]))
      {
        LayerAt(c, g, src, dimension, i + 1);
      }
      if c.showRegression {
        LayerAt(c, g, src, dimension, |g| + 1);
      } else {
        forall k | 1 <= k < |ds|
          ensures !IsRegressionLayer(ds[k])
        {
          LayerAt(c, g, src, dimension, k);
        }
      }
    }
  }

  lemma AlignedOutsideHierarchical(
    c: Config, g: seq<string>, colorFn: Cell -> Color, policy: SymbolSizePolicy, src: seq<seq<Cell>>, dimension: int)
    requires !IsHierarchicalClustering(c)
    ensures var ss := SeriesFor(c, g, colorFn, policy);
      var ds := DatasetFor(c, g, src, dimension);
      && SeriesReadTheirLayers(ss, ds)
      && forall k :: 0 <= k < |ss| ==> ReadsOwnFilter(ss, ds, k)
  {
    var ss := SeriesFor(c, g, colorFn, policy);
    var ds := DatasetFor(c, g, src, dimension);
    forall k | 0 <= k < |ss|
      ensures ReadsItsLayer(ss, ds, k) && ReadsOwnFilter(ss, ds, k)
    {
      SeriesReadsItsLayer(c, g, colorFn, policy, src, dimension, k);
    }
  }

  /** Outside hierarchical clustering, series k reads layer k + 1, which is its filter or the regression layer. */
  lemma SeriesReadsItsLayer(
    c: Config, g: seq<string>, colorFn: Cell -> Color, policy: SymbolSizePolicy,
    src: seq<seq<Cell>>, dimension: int, k: int)
    requires !IsHierarchicalClustering(c)
    requires 0 <= k < |SeriesFor(c, g, colorFn, policy)|
    ensures var ss := SeriesFor(c, g, colorFn, policy);
      var ds := DatasetFor(c, g, src, dimension);
      && ss[k].datasetIndex == k + 1
      && ReadsItsLayer(ss, ds, k)
      && ReadsOwnFilter(ss, ds, k)
  {
    if k < |g| {
      GroupSeriesReadsItsFilter(c, g, colorFn, policy, src, dimension, k);
    } else {
      RegressionSeriesReadsItsLayer(c, g, colorFn, policy, src, dimension);
    }
  }

  /** The scatter series of group k reads layer k + 1, the filter for its group. */
  lemma GroupSeriesReadsItsFilter(
    c: Config, g: seq<string>, colorFn: Cell -> Color, policy: SymbolSizePolicy,
    src: seq<seq<Cell>>, dimension: int, k: int)
    requires !IsHierarchicalClustering(c)
    requires 0 <= k < |g|
    ensures var ss := SeriesFor(c, g, colorFn, policy);
      var ds := DatasetFor(c, g, src, dimension);
      && ss[k].datasetIndex == k + 1
      && ReadsItsLayer(ss, ds, k)
      && ReadsOwnFilter(ss, ds, k)
  {
    SeriesAt(c, g, colorFn, policy, k);
    LayerAt(c, g, src, dimension, k + 1);
  }

  /** The regression series, after the group series, reads the regression layer after the filters. */
  lemma RegressionSeriesReadsItsLayer(
    c: Config, g: seq<string>, colorFn: Cell -> Color, policy: SymbolSizePolicy,
    src: seq<seq<Cell>>, dimension: int)
    requires !IsHierarchicalClustering(c) && c.showRegression
    ensures var ss := SeriesFor(c, g, colorFn, policy);
      var ds := DatasetFor(c, g, src, dimension);
      && ss[|g|].datasetIndex == |g| + 1
      && ReadsItsLayer(ss, ds, |g|)
      && ReadsOwnFilter(ss, ds, |g|)
  {
    SeriesAt(c, g, colorFn, policy, |g|);
    LayerAt(c, g, src, dimension, |g| + 1);
  }

  lemma AlignedInHierarchical(
    c: Config, g: seq<string>, colorFn: Cell -> Color, policy: SymbolSizePolicy, src: seq<seq<Cell>>, dimension: int)
    requires IsHierarchicalClustering(c)
    ensures SeriesReadTheirLayers(SeriesFor(c, g, colorFn, policy), DatasetFor(c, g, src, dimension))
            <==> |g| == 1 || (|g| == 0 && !c.showRegression)
  {
    var ss := SeriesFor(c, g, colorFn, policy);
    var ds := DatasetFor(c, g, src, dimension);
    HierarchicalLayers(c, g, src, dimension);
    assert |ss| == |g| + RegressionCount(c);
    if |g| >= 2 {
      SeriesAt(c, g, colorFn, policy, 1);
      assert !ReadsItsLayer(ss, ds, 1);
    } else if |g| == 0 && c.showRegression {
      SeriesAt(c, g, colorFn, policy, 0);
      assert !ReadsItsLayer(ss, ds, 0);
    } else {
      forall k | 0 <= k < |ss|
        ensures ReadsItsLayer(ss, ds, k)
      {
        SeriesAt(c, g, colorFn, policy, k);
      }
    }
  }

  /** How `BuildOption` decomposes into the parts above. */
  lemma OptionParts(c: Config, rows: seq<Row>, colorFn: Cell -> Color)
    ensures var o := BuildOption(c, rows, colorFn);
      var src := SourceDataSet(c, rows);
      && o.series == SeriesFor(c, UniqueGroups(c, rows), colorFn, SymbolSizePolicyOf(c, rows))
      && o.dataset == DatasetFor(c, UniqueGroups(c, rows), src, SourceDataSetDimension(src))
      && o.legend == GetLegendProps(c.legendType, c.legendOrientation, ShowLegends(c), false)
      && o.tooltip == TooltipSpec("item", 0, XField(c), YField(c), SizeField(c), c.useMetricForBubbleSize)
  {
  }

  /* ---------------------------------------------------------------------- */
  /* Series                                                                  */

  /**
    Scatter series i shows group i, reads layer i + 1 and takes the colour of
    its name; the `Regression` line series exists exactly when regression is
    shown, comes last and reads the layer after the last scatter layer.
   */
  lemma SeriesLayout(c: Config, rows: seq<Row>, colorFn: Cell -> Color)
    ensures var o := BuildOption(c, rows, colorFn);
      var g := UniqueGroups(c, rows);
      && |o.series| == |g| + RegressionCount(c)
      && (forall i :: 0 <= i < |g| ==>
           && o.series[i].ScatterSeries?
           && o.series[i].name == g[i]
           && o.series[i].datasetIndex == i + 1
           && o.series[i].color == colorFn(Str(g[i])))
      && (c.showRegression ==> o.series[|g|] == LineSeries("Regression", |g| + 1, c.showRegressionLabel))
      && (c.showRegression <==> exists k :: 0 <= k < |o.series| && o.series[k].LineSeries?)
  {
    OptionParts(c, rows, colorFn);
    SeriesForLayout(c, UniqueGroups(c, rows), colorFn, SymbolSizePolicyOf(c, rows));
  }

  /** Scatter series names are pairwise distinct: no two series share a name. */
  lemma SeriesNamesDistinct(c: Config, rows: seq<Row>, colorFn: Cell -> Color)
    ensures var o := BuildOption(c, rows, colorFn);
      forall i, j :: 0 <= i < j < |UniqueGroups(c, rows)| ==> o.series[i].name != o.series[j].name
  {
    SeriesLayout(c, rows, colorFn);
  }

  /* ---------------------------------------------------------------------- */
  /* Dataset layers                                                          */

  /**
    Layer 0 is the source, then one clustering layer in hierarchical
    clustering or one filter on dimension 3 per group in group order, then
    the regression layer last exactly when regression is shown.
   */
  lemma DatasetLayout(c: Config, rows: seq<Row>, colorFn: Cell -> Color)
    ensures var o := BuildOption(c, rows, colorFn);
      var g := UniqueGroups(c, rows);
      var dimension := SourceDataSetDimension(SourceDataSet(c, rows));
      && o.dataset[0] == SourceLayer(SourceDataSet(c, rows))
      && (!IsHierarchicalClustering(c) ==>
           && |o.dataset| == 1 + |g| + RegressionCount(c)
           && forall i :: 0 <= i < |g| ==> o.dataset[i + 1] == TransformLayer(Filter(NameDimension, g[i])))
      && (IsHierarchicalClustering(c) ==>
           && |o.dataset| == 2 + RegressionCount(c)
           && o.dataset[1] == TransformLayer(Clustering(c.amountOfKmeansCluster, "single", [0, 1], dimension)))
      && (c.showRegression ==> o.dataset[|o.dataset| - 1] == TransformLayer(Regression(c.regression, c.regressionOrder)))
      && (!c.showRegression ==> forall k :: 1 <= k < |o.dataset| ==> !IsRegressionLayer(o.dataset[k]))
  {
    OptionParts(c, rows, colorFn);
    var src := SourceDataSet(c, rows);
    DatasetForLayout(c, UniqueGroups(c, rows), src, SourceDataSetDimension(src));
  }

  /**
    Outside hierarchical clustering every series reads its own layer: scatter
    series k reads the filter for its own name, the line series reads the
    regression layer.
   */
  lemma SeriesAlignedWithLayers(c: Config, rows: seq<Row>, colorFn: Cell -> Color)
    requires !IsHierarchicalClustering(c)
    ensures var o := BuildOption(c, rows, colorFn);
      && SeriesReadTheirLayers(o.series, o.dataset)
      && forall k :: 0 <= k < |o.series| ==> ReadsOwnFilter(o.series, o.dataset, k)
  {
    OptionParts(c, rows, colorFn);
    var src := SourceDataSet(c, rows);
    AlignedOutsideHierarchical(
      c, UniqueGroups(c, rows), colorFn, SymbolSizePolicyOf(c, rows), src, SourceDataSetDimension(src));
  }

  /**
    In hierarchical clustering the dataset has one clustering layer however
    many groups there are, so the series read their layers exactly when
    there is one group, or no group and no regression line.
   */
  lemma HierarchicalAlignmentNeedsOneGroup(c: Config, rows: seq<Row>, colorFn: Cell -> Color)
    requires IsHierarchicalClustering(c)
    ensures var o := BuildOption(c, rows, colorFn);
      var g := UniqueGroups(c, rows);
      SeriesReadTheirLayers(o.series, o.dataset) <==> |g| == 1 || (|g| == 0 && !c.showRegression)
  {
    OptionParts(c, rows, colorFn);
    var src := SourceDataSet(c, rows);
    AlignedInHierarchical(
      c, UniqueGroups(c, rows), colorFn, SymbolSizePolicyOf(c, rows), src, SourceDataSetDimension(src));
  }

  /**
    With rows and no column named like the fallback `Cluster`, hierarchical
    clustering discovers the single group `Cluster`.
   */
  lemma HierarchicalSingleGroup(c: Config, rows: seq<Row>)
    requires IsHierarchicalClustering(c)
    requires |rows| > 0
    requires forall i :: 0 <= i < |rows| ==> ClusterSeriesName !in rows[i]
    ensures UniqueGroups(c, rows) == [ClusterSeriesName]
  {
    var all := AllGroups(c, rows);
    assert forall i :: 0 <= i < |all| ==> all[i] == ClusterSeriesName;
    DedupOfConstant(all, ClusterSeriesName);
  }

  /** A tuple named after group `name` passes exactly one layer: the filter of that group, read by the series of that name. */
  lemma FilterLayersOfName(
    c: Config, g: seq<string>, colorFn: Cell -> Color, policy: SymbolSizePolicy,
    src: seq<seq<Cell>>, dimension: int, t: seq<Cell>, name: string)
    requires !IsHierarchicalClustering(c)
    requires NoDuplicates(g) && name in g
    requires |t| > NameDimension && t[NameDimension] == Str(name)
    ensures var ds := DatasetFor(c, g, src, dimension);
      var ss := SeriesFor(c, g, colorFn, policy);
      && (exists k :: LayerKeeps(ds, k, t) && SeriesNamed(ss, k - 1, name))
      && (forall k1, k2 :: LayerKeeps(ds, k1, t) && LayerKeeps(ds, k2, t) ==> k1 == k2)
  {
    var ds := DatasetFor(c, g, src, dimension);
    var ss := SeriesFor(c, g, colorFn, policy);
    var i :| 0 <= i < |g| && g[i] == name;
    OwnFilterKeeps(c, g, colorFn, policy, src, dimension, t, i);
    forall k | LayerKeeps(ds, k, t)
      ensures k == i + 1
    {
      KeptOnlyByOwnGroup(c, g, src, dimension, t, name, k);
    }
  }

  /** The filter of group i keeps the tuples named after it, and series i carries that name. */
  lemma OwnFilterKeeps(
    c: Config, g: seq<string>, colorFn: Cell -> Color, policy: SymbolSizePolicy,
    src: seq<seq<Cell>>, dimension: int, t: seq<Cell>, i: int)
    requires !IsHierarchicalClustering(c)
    requires 0 <= i < |g|
    requires |t| > NameDimension && t[NameDimension] == Str(g[i])
    ensures LayerKeeps(DatasetFor(c, g, src, dimension), i + 1, t)
    ensures SeriesNamed(SeriesFor(c, g, colorFn, policy), i, g[i])
  {
    LayerAt(c, g, src, dimension, i + 1);
    SeriesAt(c, g, colorFn, policy, i);
  }

  /** A layer that keeps a tuple named `name` is the filter of group `name`. */
  lemma KeptOnlyByOwnGroup(
    c: Config, g: seq<string>, src: seq<seq<Cell>>, dimension: int, t: seq<Cell>, name: string, k: int)
    requires !IsHierarchicalClustering(c)
    requires |t| > NameDimension && t[NameDimension] == Str(name)
    requires LayerKeeps(DatasetFor(c, g, src, dimension), k, t)
    ensures 1 <= k <= |g| && g[k - 1] == name
  {
    LayerAt(c, g, src, dimension, k);
  }

  /**
    In aggregate mode and in entity clustering each row is kept by exactly
    one filter layer, and the series reading that layer is named after the
    row's group.
   */
  lemma EveryRowInExactlyOneFilter(c: Config, rows: seq<Row>, colorFn: Cell -> Color, r: int)
    requires IsAggMode(c) || IsEntityClustering(c)
    requires 0 <= r < |rows|
    ensures var o := BuildOption(c, rows, colorFn);
      var t := SourceDataSet(c, rows)[r];
      && (exists k :: LayerKeeps(o.dataset, k, t) && SeriesNamed(o.series, k - 1, GroupOf(c, rows[r])))
      && (forall k1, k2 :: LayerKeeps(o.dataset, k1, t) && LayerKeeps(o.dataset, k2, t) ==> k1 == k2)
  {
    var g := UniqueGroups(c, rows);
    var src := SourceDataSet(c, rows);
    OptionParts(c, rows, colorFn);
    TupleNameIsGroup(c, rows, r);
    FilterLayersOfName(
      c, g, colorFn, SymbolSizePolicyOf(c, rows), src, SourceDataSetDimension(src), src[r], GroupOf(c, rows[r]));
  }

  /* ---------------------------------------------------------------------- */
  /* Legend and visual map                                                   */

  /**
    In hierarchical clustering the legend is hidden and a single piecewise
    visual map has one piece per cluster, piece i valued i and labelled
    `Cluster - {i+1}`, bound to series 0 and to the dimension the clustering
    layer writes the cluster index into.
   */
  lemma HierarchicalVisualMap(c: Config, rows: seq<Row>, colorFn: Cell -> Color)
    requires IsHierarchicalClustering(c)
    ensures var o := BuildOption(c, rows, colorFn);
      var dimension := SourceDataSetDimension(SourceDataSet(c, rows));
      && !o.legend.show
      && |o.visualMap| == 1
      && |o.visualMap[0].pieces| == (if c.amountOfKmeansCluster > 0 then c.amountOfKmeansCluster else 0)
      && (forall i :: 0 <= i < |o.visualMap[0].pieces| ==>
           && o.visualMap[0].pieces[i].value == i
           && o.visualMap[0].pieces[i].pieceLabel == PieceLabel(i))
      && o.visualMap[0].seriesIndex == 0
      && o.visualMap[0].dimension == dimension
      && o.dataset[1].transform.outputClusterIndexDimension == dimension
      && (|rows| > 0 ==> dimension == 4)
  {
    var o := BuildOption(c, rows, colorFn);
    var src := SourceDataSet(c, rows);
    var dimension := SourceDataSetDimension(src);
    var g := UniqueGroups(c, rows);
    OptionParts(c, rows, colorFn);
    assert o.dataset == DatasetFor(c, g, src, dimension);
    DatasetForLayout(c, g, src, dimension);
    var vm := GetVisualMap(c, dimension, colorFn);
    assert o.visualMap == vm;
    var ps := ClusterPieces(c.amountOfKmeansCluster, colorFn);
    assert vm[0].pieces == ps;
    forall i | 0 <= i < |ps|
      ensures ps[i].value == i && ps[i].pieceLabel == PieceLabel(i)
    {
      assert ps[i] == Piece(i, PieceLabel(i), colorFn(Num(i)));
    }
    TupleWidthByMode(c, rows);
  }

  /** Outside hierarchical clustering there is no visual map and the legend follows its setting. */
  lemma NoVisualMapOtherwise(c: Config, rows: seq<Row>, colorFn: Cell -> Color)
    requires !IsHierarchicalClustering(c)
    ensures var o := BuildOption(c, rows, colorFn);
      o.visualMap == [] && o.legend.show == c.showLegend
  {
    OptionParts(c, rows, colorFn);
  }

  /** Cluster labels are pairwise distinct. */
  lemma PieceLabelsDistinct(clusterGroups: int, colorFn: Cell -> Color)
    ensures var ps := ClusterPieces(clusterGroups, colorFn);
      forall i, j :: 0 <= i < j < |ps| ==> ps[i].pieceLabel != ps[j].pieceLabel
  {
    var ps := ClusterPieces(clusterGroups, colorFn);
    forall i, j | 0 <= i < j < |ps|
      ensures ps[i].pieceLabel != ps[j].pieceLabel
    {
      assert ps[i].pieceLabel == PieceLabel(i) && ps[j].pieceLabel == PieceLabel(j);
      PieceLabelInjective(i, j);
    }
  }

  /** Different clusters get different labels. */
  lemma PieceLabelInjective(i: int, j: int)
    requires i != j
    ensures PieceLabel(i) != PieceLabel(j)
  {
    IntToStringInjective(i + 1, j + 1);
  }

  /** A numeric group value is named by a decimal string that reads back as that number. */
  lemma NumericSeriesNameReadsBack(c: Config, n: int)
    ensures DecimalValue(GetSeriesName(c, Num(n))) == Some(n)
  {
    IntToStringRoundTrip(n);
  }

  /* ---------------------------------------------------------------------- */
  /* Bubble size                                                             */

  /** Without metric-driven sizes every scatter series draws every point at the flat bubble size. */
  lemma FlatBubbleSize(c: Config, rows: seq<Row>, colorFn: Cell -> Color, params: seq<Cell>)
    requires !c.useMetricForBubbleSize
    ensures var o := BuildOption(c, rows, colorFn);
      forall k :: 0 <= k < |o.series| && o.series[k].ScatterSeries? ==>
        SymbolSize(o.series[k].symbolSize, params) == Finite(c.bubbleSize as real)
  {
    var o := BuildOption(c, rows, colorFn);
    var g := UniqueGroups(c, rows);
    var policy := SymbolSizePolicyOf(c, rows);
    OptionParts(c, rows, colorFn);
    forall k | 0 <= k < |o.series| && o.series[k].ScatterSeries?
      ensures o.series[k].symbolSize == policy
    {
      SeriesAt(c, g, colorFn, policy, k);
    }
  }

  /**
    The observed range is empty only when every size is 0 or `null` (or
    there are no rows); then every metric-driven symbol size is non-finite.
   */
  lemma EmptyObservedRange(c: Config, rows: seq<Row>, params: seq<Cell>)
    requires c.useMetricForBubbleSize
    requires var b := SizeBounds(rows, SizeField(c)); b.Some? && b.value.lo == b.value.hi
    ensures forall i :: 0 <= i < |rows| ==> Lookup(rows[i], SizeField(c)) in {Num(0), Null}
    ensures SymbolSize(SymbolSizePolicyOf(c, rows), params) == NotFinite
  {
    var b := SizeBounds(rows, SizeField(c));
    forall i | 0 <= i < |rows|
      ensures Lookup(rows[i], SizeField(c)) in {Num(0), Null}
    {
      assert ToNumber(Lookup(rows[i], SizeField(c))).value == 0;
    }
  }

  /**
    A rescaled symbol size over a proper observed range, for a point whose
    size lies in that range, lies in the configured range, with the ends of
    the observed range going to the ends of the configured range.
   */
  lemma RescaledSizeInRange(b: Bounds, outMin: int, outMax: int, params: seq<Cell>)
    requires b.lo < b.hi && outMin <= outMax
    requires |params| > BubbleSizeDimension
    requires var v := ToNumber(params[BubbleSizeDimension]); v.Some? && b.lo <= v.value <= b.hi
    ensures var size := SymbolSize(Rescaled(Some(b), outMin, outMax), params);
      var v := ToNumber(params[BubbleSizeDimension]).value;
      && size.Finite?
      && outMin as real <= size.value <= outMax as real
      && (v == b.hi ==> size.value == outMax as real)
      && (v == b.lo ==> size.value == outMin as real)
  {
    var v := ToNumber(params[BubbleSizeDimension]).value;
    ScaleStaysInRange(v as real, b.lo as real, b.hi as real, outMin as real, outMax as real);
    ScaleMapsEndpoints(b.lo as real, b.hi as real, outMin as real, outMax as real);
  }

  /** The size slot of a row's tuple reads as the row's size, `null` reading as 0. */
  lemma SizeSlotValue(c: Config, rows: seq<Row>, r: int)
    requires 0 <= r < |rows|
    requires ToNumber(Lookup(rows[r], SizeField(c))).Some?
    ensures var t := SourceDataSet(c, rows)[r];
      |t| > BubbleSizeDimension && ToNumber(t[BubbleSizeDimension]) == ToNumber(Lookup(rows[r], SizeField(c)))
  {
    var t := SourceDataSet(c, rows)[r];
    assert t == ProjectRow(c, rows[r]);
  }

  /**
    With a proper observed range and an ordered configured range, every
    point of the source layer gets a bubble inside the configured range;
    the row holding the observed maximum gets the maximum bubble and the
    row holding the observed minimum the minimum bubble.
   */
  lemma BubbleSizesWithinConfiguredRange(c: Config, rows: seq<Row>, r: int)
    requires c.useMetricForBubbleSize
    requires var b := SizeBounds(rows, SizeField(c)); b.Some? && b.value.lo != b.value.hi
    requires c.minBubbleSize <= c.maxBubbleSize
    requires 0 <= r < |rows|
    ensures var size := SymbolSize(SymbolSizePolicyOf(c, rows), SourceDataSet(c, rows)[r]);
      && size.Finite?
      && c.minBubbleSize as real <= size.value <= c.maxBubbleSize as real
    ensures var b := SizeBounds(rows, SizeField(c));
      var size := SymbolSize(SymbolSizePolicyOf(c, rows), SourceDataSet(c, rows)[r]);
      && (ToNumber(Lookup(rows[r], SizeField(c))) == Some(b.value.hi) ==> size == Finite(c.maxBubbleSize as real))
      && (ToNumber(Lookup(rows[r], SizeField(c))) == Some(b.value.lo) ==> size == Finite(c.minBubbleSize as real))
  {
    var b := SizeBounds(rows, SizeField(c)).value;
    SizeSlotValue(c, rows, r);
    RescaledSizeInRange(b, c.minBubbleSize, c.maxBubbleSize, SourceDataSet(c, rows)[r]);
  }

  /* ---------------------------------------------------------------------- */
  /* Tooltip                                                                 */

  /**
    Outside hierarchical clustering, where each point is a source tuple
    passed through a filter, hovering the point of row r shows the row's
    name components, its x and y values under the x and y field names and,
    when sizes come from the data, its size slot under the size field name.
   */
  lemma TooltipOfSourcePoint(c: Config, rows: seq<Row>, colorFn: Cell -> Color, r: int)
    requires !IsHierarchicalClustering(c)
    requires 0 <= r < |rows|
    ensures var o := BuildOption(c, rows, colorFn);
      var tip := FormatTooltip(o.tooltip, PointParams(SourceDataSet(c, rows)[r]));
      && tip.PointTooltip?
      && tip.seriesNames == NameCells(c, rows[r])
      && tip.xLabel == XField(c) && tip.x == Lookup(rows[r], XField(c))
      && tip.yLabel == YField(c) && tip.y == Lookup(rows[r], YField(c))
      && (tip.sizeLine.Some? <==> c.useMetricForBubbleSize)
      && (c.useMetricForBubbleSize ==>
           tip.sizeLine.value == (SizeField(c), SizeSlot(Lookup(rows[r], SizeField(c)))))
  {
    OptionParts(c, rows, colorFn);
    var t := SourceDataSet(c, rows)[r];
    assert t == ProjectRow(c, rows[r]);
    assert |t| > NameDimension;
  }

  /**
    In hierarchical clustering the hovered point is the source tuple with the
    cluster index the clustering layer appends at dimension 4, so the tooltip
    lists the row's name and then that cluster index. The index itself is
    computed by the statistics engine and is a parameter here.
   */
  lemma TooltipOfClusteredPoint(c: Config, rows: seq<Row>, colorFn: Cell -> Color, r: int, cluster: Cell)
    requires IsHierarchicalClustering(c)
    requires 0 <= r < |rows|
    ensures var o := BuildOption(c, rows, colorFn);
      var t := SourceDataSet(c, rows)[r];
      var tip := FormatTooltip(o.tooltip, PointParams(t + [cluster]));
      && |t| == 4
      && tip.PointTooltip?
      && tip.seriesNames == NameCells(c, rows[r]) + [cluster]
      && tip.x == Lookup(rows[r], XField(c)) && tip.y == Lookup(rows[r], YField(c))
  {
    OptionParts(c, rows, colorFn);
    var t := SourceDataSet(c, rows)[r];
    assert t == ProjectRow(c, rows[r]);
    TooltipOfExtendedTuple(BuildOption(c, rows, colorFn).tooltip, t, cluster);
  }

  /** A hovered 4-wide tuple extended by one cell lists its name and then that cell. */
  lemma TooltipOfExtendedTuple(spec: TooltipSpec, t: seq<Cell>, cluster: Cell)
    requires |t| == 4
    ensures var tip := FormatTooltip(spec, PointParams(t + [cluster]));
      && tip.PointTooltip?
      && tip.seriesNames == t[NameDimension..] + [cluster]
      && tip.x == t[XDimension] && tip.y == t[YDimension]
  {
    assert (t + [cluster])[NameDimension..] == t[NameDimension..] + [cluster];
  }

  /* ---------------------------------------------------------------------- */
  /* Raw mode without entity clustering                                      */

  /**
    In raw mode without clustering, groups are read from the column named
    like the fallback series while dimension 3 still holds the entity
    column's value. With no such column every row falls in the fallback
    group, and a row whose entity cell names anything else passes no layer,
    so its point is not drawn by any series.
   */
  lemma StaleEntityRowsPassNoLayer(c: Config, rows: seq<Row>, colorFn: Cell -> Color, r: int)
    requires !IsAggMode(c) && !IsEntityClustering(c) && !IsHierarchicalClustering(c)
    requires forall i :: 0 <= i < |rows| ==> FallbackSeriesName !in rows[i]
    requires 0 <= r < |rows|
    requires GetSeriesName(c, Lookup(rows[r], c.clusterEntity)) != FallbackSeriesName
    ensures UniqueGroups(c, rows) == [FallbackSeriesName]
    ensures var o := BuildOption(c, rows, colorFn);
      forall k :: !LayerKeeps(o.dataset, k, SourceDataSet(c, rows)[r])
  {
    var all := AllGroups(c, rows);
    assert forall i :: 0 <= i < |all| ==> all[i] == FallbackSeriesName;
    DedupOfConstant(all, FallbackSeriesName);
    var src := SourceDataSet(c, rows);
    OptionParts(c, rows, colorFn);
    var t := src[r];
    assert t == ProjectRow(c, rows[r]);
    assert t[NameDimension] == NameCells(c, rows[r])[0];
    NoLayerKeepsOtherNames(c, [FallbackSeriesName], src, SourceDataSetDimension(src), t);
  }

  /** A tuple whose dimension 3 names no group passes no layer. */
  lemma NoLayerKeepsOtherNames(c: Config, g: seq<string>, src: seq<seq<Cell>>, dimension: int, t: seq<Cell>)
    requires !IsHierarchicalClustering(c)
    requires |t| > NameDimension && forall name :: name in g ==> t[NameDimension] != Str(name)
    ensures forall k :: !LayerKeeps(DatasetFor(c, g, src, dimension), k, t)
  {
    var ds := DatasetFor(c, g, src, dimension);
    forall k
      ensures !LayerKeeps(ds, k, t)
    {
      if 1 <= k < |ds| {
        LayerAt(c, g, src, dimension, k);
        if k <= |g| {
          assert g[k - 1] in g;
        }
      }
    }
  }

  /* ---------------------------------------------------------------------- */
  /* The entry point                                                         */

  /**
    Regression shown but its method left out of the form data gives a
    linear regression layer, read by the last series.
   */
  lemma DefaultRegressionIsLinear(props: ChartProps, legend: LegendDefaults, colorFn: Cell -> Color)
    requires props.formData.showRegression == Some(true) && props.formData.regression.None?
    ensures var o := TransformProps(props, legend, colorFn).echartOptions;
      && |o.dataset| >= 2 && |o.series| >= 1
      && o.dataset[|o.dataset| - 1] == TransformLayer(Regression(Linear, props.formData.regressionOrder))
      && o.series[|o.series| - 1] == LineSeries("Regression", |o.series|, props.formData.showRegressionLabel == Some(true))
  {
    var c := MergeDefaults(props.formData, legend);
    var rows := props.data;
    OptionParts(c, rows, colorFn);
    SeriesLayout(c, rows, colorFn);
    DatasetLayout(c, rows, colorFn);
  }
}

=== FILE: transform_props.dfy ===
/**
  The scatter chart's option compiler: from the configuration and the
  query result rows to the plotting description the rendering engine
  draws (legend, axes, visual map, series, tooltip and dataset layers).

  Dataset layer 0 holds one positional tuple per row,
  `[x, y, size | null, name...]`; the later layers are transform
  descriptors, and a series reads the layer its `datasetIndex` names.
 */
module ScatterChart {
  import opened Values
  import opened Decimal
  import opened Distinct
  import opened FormData
  import opened Transforms

  const XDimension := 0
  const YDimension := 1
  const BubbleSizeDimension := 2
  const NameDimension := 3
  const FallbackSeriesName := "Data"
  const ClusterSeriesName := "Cluster"

  /* ---------------------------------------------------------------------- */
  /* Modes                                                                   */

  predicate IsAggMode(c: Config) {
    c.queryMode == Some(Aggregate)
  }

  /** Raw rows clustered by k-means in the rendering engine. */
  predicate IsHierarchicalClustering(c: Config) {
    c.clusterType == Some(HierarchicalKmeans) && c.enableClustering && !IsAggMode(c)
  }

  /** Raw rows grouped by the value of the chosen entity column. */
  predicate IsEntityClustering(c: Config) {
    c.clusterType == Some(ClusterByEntity) && c.enableClustering && c.clusterEntity != "" && !IsAggMode(c)
  }

  /** Clustering applies to raw rows only, and the two kinds exclude each other. */
  lemma ClusteringModesExclusive(c: Config)
    ensures !(IsHierarchicalClustering(c) && IsEntityClustering(c))
    ensures IsAggMode(c) ==> !IsHierarchicalClustering(c) && !IsEntityClustering(c)
    ensures IsHierarchicalClustering(c) || IsEntityClustering(c) ==> c.enableClustering
  {
  }

  /* ---------------------------------------------------------------------- */
  /* Field resolution                                                        */

  /**
    The display name of a cell: a number's decimal form, a string as is,
    and otherwise the fallback label of the current mode.
   */
  function GetSeriesName(c: Config, name: Cell): (r: string)
    ensures name.Num? ==> r == IntToString(name.n)
    ensures name.Str? ==> r == name.s
    ensures !name.Num? && !name.Str? && IsHierarchicalClustering(c) ==> r == ClusterSeriesName
    ensures !name.Num? && !name.Str? && !IsHierarchicalClustering(c) ==> r == FallbackSeriesName
  {
    match name
    case Num(n) => IntToString(n)
    case Str(s) => s
    case _ => if IsHierarchicalClustering(c) then ClusterSeriesName else FallbackSeriesName
  }

  function XField(c: Config): string {
    if IsAggMode(c) then c.x else c.xRaw
  }

  function YField(c: Config): string {
    if IsAggMode(c) then c.y else c.yRaw
  }

  function SizeField(c: Config): string {
    if IsAggMode(c) then c.size else c.sizeRaw
  }

  /**
    The grouping fields: the configured group-by in aggregate mode when it
    is non-empty, otherwise the fallback series name used as a field name.
   */
  function Groupby(c: Config): (g: seq<string>)
    ensures |g| >= 1
    ensures IsAggMode(c) && |c.groupby| > 0 ==> g == c.groupby
    ensures !(IsAggMode(c) && |c.groupby| > 0) ==> g == [GetSeriesName(c, Undefined)]
  {
    if IsAggMode(c) && |c.groupby| > 0 then c.groupby else [GetSeriesName(c, Undefined)]
  }

  /* ---------------------------------------------------------------------- */
  /* Source layer                                                            */

  /** `datum[sizeField] || null`: falsy sizes, 0 included, become `null`. */
  function SizeSlot(cell: Cell): (r: Cell)
    ensures IsTruthy(cell) ==> r == cell
    ensures !IsTruthy(cell) ==> r == Null
    ensures r == Null || IsTruthy(r)
  {
    if IsTruthy(cell) then cell else Null
  }

  /** Width of every tuple of the source layer. */
  function TupleWidth(c: Config): (w: nat)
    ensures w > NameDimension
  {
    if IsAggMode(c) then 3 + |Groupby(c)| else 4
  }

  /** The trailing name components of a row's tuple. */
  function NameCells(c: Config, row: Row): (names: seq<Cell>)
    ensures |names| == TupleWidth(c) - 3
    ensures !IsAggMode(c) ==> names == [Str(GetSeriesName(c, Lookup(row, c.clusterEntity)))]
    ensures IsAggMode(c) ==> forall k :: 0 <= k < |names| ==> names[k] == Str(GetSeriesName(c, Lookup(row, Groupby(c)[k])))
  {
    if !IsAggMode(c) then [Str(GetSeriesName(c, Lookup(row, c.clusterEntity)))]
    else
      var g := Groupby(c);
      seq(|g|, k requires 0 <= k < |g| => Str(GetSeriesName(c, Lookup(row, g[k]))))
  }

  /** The positional tuple `[x, y, size | null, name...]` of one row. */
  function ProjectRow(c: Config, row: Row): (t: seq<Cell>)
    ensures |t| == TupleWidth(c)
    ensures t[XDimension] == Lookup(row, XField(c))
    ensures t[YDimension] == Lookup(row, YField(c))
    ensures t[BubbleSizeDimension] == SizeSlot(Lookup(row, SizeField(c)))
    ensures t[NameDimension..] == NameCells(c, row)
  {
    [Lookup(row, XField(c)), Lookup(row, YField(c)), SizeSlot(Lookup(row, SizeField(c)))] + NameCells(c, row)
  }

  /** The source layer: one tuple per row, in row order, all of the same width. */
  function SourceDataSet(c: Config, rows: seq<Row>): (src: seq<seq<Cell>>)
    ensures |src| == |rows|
    ensures forall i :: 0 <= i < |src| ==> src[i] == ProjectRow(c, rows[i])
    ensures forall i, j :: 0 <= i < |src| && 0 <= j < |src| ==> |src[i]| == |src[j]|
  {
    seq(|rows|, i requires 0 <= i < |rows| => ProjectRow(c, rows[i]))
  }

  /** Width of the first tuple, or 0 when there are no rows. */
  function SourceDataSetDimension(src: seq<seq<Cell>>): nat {
    if |src| > 0 && |src[0]| > 0 then |src[0]| else 0
  }

  /* ---------------------------------------------------------------------- */
  /* Group discovery                                                         */

  /** The group a row belongs to. */
  function GroupOf(c: Config, row: Row): (g: string)
    ensures IsAggMode(c) || IsEntityClustering(c) ==> NameCells(c, row)[0] == Str(g)
  {
    if IsEntityClustering(c) then GetSeriesName(c, Lookup(row, c.clusterEntity))
    else GetSeriesName(c, Lookup(row, Groupby(c)[0]))
  }

  function AllGroups(c: Config, rows: seq<Row>): (gs: seq<string>)
    ensures |gs| == |rows|
    ensures forall i :: 0 <= i < |rows| ==> gs[i] == GroupOf(c, rows[i])
  {
    seq(|rows|, i requires 0 <= i < |rows| => GroupOf(c, rows[i]))
  }

  /** The distinct groups, in the order they first occur among the rows. */
  function UniqueGroups(c: Config, rows: seq<Row>): (gs: seq<string>)
    ensures IsFirstOccurrenceOrder(AllGroups(c, rows), gs)
    ensures NoDuplicates(gs)
    ensures forall i :: 0 <= i < |rows| ==> GroupOf(c, rows[i]) in gs
    ensures forall g :: g in gs ==> exists i :: 0 <= i < |rows| && GroupOf(c, rows[i]) == g
  {
    var all := AllGroups(c, rows);
    DedupIsFirstOccurrenceOrder(all);
    assert forall i :: 0 <= i < |rows| ==> all[i] in all;
    Dedup(all)
  }

  /* ---------------------------------------------------------------------- */
  /* Bubble size                                                             */

  function Min(a: int, b: int): int {
    if a <= b then a else b
  }

  function Max(a: int, b: int): int {
    if a >= b then a else b
  }

  /**
    `reduce(Math.min, 0)` and `reduce(Math.max, 0)` over the size column.
    NaN (`None`) as soon as one size cell is not numeric.
   */
  function SizeBounds(rows: seq<Row>, field: string): (b: Option<Bounds>)
    ensures b.Some? <==> forall i :: 0 <= i < |rows| ==> ToNumber(Lookup(rows[i], field)).Some?
    ensures b.Some? ==> b.value.lo <= 0 <= b.value.hi
    ensures b.Some? ==> forall i :: 0 <= i < |rows| ==>
      b.value.lo <= ToNumber(Lookup(rows[i], field)).value <= b.value.hi
    ensures b.Some? && b.value.lo != 0 ==>
      exists i :: 0 <= i < |rows| && ToNumber(Lookup(rows[i], field)) == Some(b.value.lo)
    ensures b.Some? && b.value.hi != 0 ==>
      exists i :: 0 <= i < |rows| && ToNumber(Lookup(rows[i], field)) == Some(b.value.hi)
    decreases |rows|
  {
    if |rows| == 0 then Some(Bounds(0, 0))
    else
      var n := |rows| - 1;
      var acc := SizeBounds(rows[..n], field);
      var v := ToNumber(Lookup(rows[n], field));
      assert forall i :: 0 <= i < n ==> rows[..n][i] == rows[i];
      if acc.None? || v.None? then None
      else Some(Bounds(Min(acc.value.lo, v.value), Max(acc.value.hi, v.value)))
  }

  /** The `symbolSize` callback every scatter series carries. */
  function SymbolSizePolicyOf(c: Config, rows: seq<Row>): (p: SymbolSizePolicy)
    ensures !c.useMetricForBubbleSize ==> p == FixedSize(c.bubbleSize)
    ensures c.useMetricForBubbleSize ==>
      p == Rescaled(SizeBounds(rows, SizeField(c)), c.minBubbleSize, c.maxBubbleSize)
  {
    if !c.useMetricForBubbleSize then FixedSize(c.bubbleSize)
    else Rescaled(SizeBounds(rows, SizeField(c)), c.minBubbleSize, c.maxBubbleSize)
  }

  /**
    The symbol size of the point whose tuple is `params`: the flat size, or
    the rescale of its size slot. Non-numeric sizes, NaN bounds and an empty
    observed range give a non-finite size, as division does in JavaScript.
   */
  function SymbolSize(policy: SymbolSizePolicy, params: seq<Cell>): (r: JsNumber)
    ensures policy.FixedSize? ==> r == Finite(policy.size as real)
    ensures policy.Rescaled? ==>
      (r.Finite? <==>
        && policy.bounds.Some? && policy.bounds.value.lo != policy.bounds.value.hi
        && |params| > BubbleSizeDimension && ToNumber(params[BubbleSizeDimension]).Some?)
    ensures policy.Rescaled? && r.Finite? ==>
      var lo := policy.bounds.value.lo as real;
      var hi := policy.bounds.value.hi as real;
      var v := ToNumber(params[BubbleSizeDimension]).value as real;
      (r.value - policy.outMin as real) * (hi - lo) == (v - lo) * (policy.outMax as real - policy.outMin as real)
  {
    match policy
    case FixedSize(size) => Finite(size as real)
    case Rescaled(bounds, outMin, outMax) =>
      var v := if |params| > BubbleSizeDimension then ToNumber(params[BubbleSizeDimension]) else None;
      if bounds.None? || v.None? || bounds.value.lo == bounds.value.hi then NotFinite
      else Finite(ScaleNumberToBubbleSize(
        v.value as real, bounds.value.lo as real, bounds.value.hi as real, outMin as real, outMax as real))
  }

  /* ---------------------------------------------------------------------- */
  /* Legend and visual map                                                   */

  /** The legend is suppressed in hierarchical clustering, where the visual map replaces it. */
  function ShowLegends(c: Config): (show: bool)
    ensures IsHierarchicalClustering(c) ==> !show
    ensures !IsHierarchicalClustering(c) ==> show == c.showLegend
  {
    if IsHierarchicalClustering(c) then false else c.showLegend
  }

  datatype Piece = Piece(value: int, pieceLabel: string, color: Color)

  datatype VisualMap = Piecewise(
    top: string,
    right: int,
    orient: Orient,
    min: int,
    max: int,
    dimension: int,
    pieces: seq<Piece>,
    splitNumber: int,
    seriesIndex: int
  )

  /**
    The label of cluster `i`, counted from 1. Pieces exist only in
    hierarchical clustering, so the prefix is always the cluster name.
   */
  function PieceLabel(i: int): (s: string)
    ensures |s| >= 10 && s[..10] == "Cluster - "
    ensures s[10..] == IntToString(i + 1)
  {
    ClusterSeriesName + " - " + IntToString(i + 1)
  }

  /** One piece per cluster index `0 .. clusterGroups - 1`; none when the count is not positive. */
  function ClusterPieces(clusterGroups: int, colorFn: Cell -> Color): (ps: seq<Piece>)
    ensures |ps| == if clusterGroups > 0 then clusterGroups else 0
    ensures forall i :: 0 <= i < |ps| ==> ps[i] == Piece(i, PieceLabel(i), colorFn(Num(i)))
  {
    var n := if clusterGroups > 0 then clusterGroups else 0;
    seq(n, i requires 0 <= i < n => Piece(i, PieceLabel(i), colorFn(Num(i))))
  }

  /**
    The piecewise visual map colouring points by cluster index, bound to
    dimension `dimension` of the first series; empty outside hierarchical
    clustering.
   */
  function GetVisualMap(c: Config, dimension: int, colorFn: Cell -> Color): (vm: seq<VisualMap>)
    ensures IsHierarchicalClustering(c) <==> |vm| == 1
    ensures !IsHierarchicalClustering(c) ==> vm == []
    ensures |vm| == 1 ==>
      && vm[0].pieces == ClusterPieces(c.amountOfKmeansCluster, colorFn)
      && vm[0].dimension == dimension && vm[0].seriesIndex == 0
      && vm[0].min == 0 && vm[0].max == c.amountOfKmeansCluster
      && vm[0].splitNumber == c.amountOfKmeansCluster
  {
    if IsHierarchicalClustering(c) then
      [Piecewise(
        top := "top",
        right := 0,
        orient := Horizontal,
        min := 0,
        max := c.amountOfKmeansCluster,
        dimension := dimension,
        pieces := ClusterPieces(c.amountOfKmeansCluster, colorFn),
        splitNumber := c.amountOfKmeansCluster,
        seriesIndex := 0)]
    else []
  }

  /* ---------------------------------------------------------------------- */
  /* Series and dataset layers                                               */

  /** Scatter series `i` shows group `i` and reads dataset layer `i + 1`. */
  function ScatterSeriesOf(c: Config, groups: seq<string>, colorFn: Cell -> Color, policy: SymbolSizePolicy): (ss: seq<Series>)
    ensures |ss| == |groups|
    ensures forall i :: 0 <= i < |ss| ==>
      ss[i] == BuildScatterSeries(groups[i], i + 1, colorFn, c.showHighlighting, c.showLabels, policy)
  {
    seq(|groups|, i requires 0 <= i < |groups| =>
      BuildScatterSeries(groups[i], i + 1, colorFn, c.showHighlighting, c.showLabels, policy))
  }

  /** One clustering layer in hierarchical clustering, otherwise one filter per group on the name dimension. */
  function ScatterTransformsOf(c: Config, groups: seq<string>, dimension: int): (ts: seq<Transform>)
    ensures IsHierarchicalClustering(c) ==> ts == GetClusteringTransform(c.amountOfKmeansCluster, dimension)
    ensures !IsHierarchicalClustering(c) ==> ts == BuildScatterTransforms(groups, NameDimension)
  {
    if IsHierarchicalClustering(c) then GetClusteringTransform(c.amountOfKmeansCluster, dimension)
    else BuildScatterTransforms(groups, NameDimension)
  }

  /** The scatter series, then the regression series when it is shown. */
  function SeriesOf(c: Config, scatter: seq<Series>): (ss: seq<Series>)
    ensures |ss| == |scatter| + (if c.showRegression then 1 else 0)
    ensures forall i :: 0 <= i < |scatter| ==> ss[i] == scatter[i]
    ensures c.showRegression ==> ss[|scatter|] == GetRegressionSeries(|scatter| + 1, c.showRegressionLabel)
  {
    scatter + if c.showRegression then [GetRegressionSeries(|scatter| + 1, c.showRegressionLabel)] else []
  }

  /** The scatter transforms, then the regression transform when regression is shown. */
  function TransformsOf(c: Config, scatterTransforms: seq<Transform>): (ts: seq<Transform>)
    ensures |ts| == |scatterTransforms| + (if c.showRegression then 1 else 0)
    ensures forall i :: 0 <= i < |scatterTransforms| ==> ts[i] == scatterTransforms[i]
    ensures c.showRegression ==> ts[|scatterTransforms|] == GetRegressionTransform(c.regression, c.regressionOrder)
  {
    scatterTransforms + if c.showRegression then [GetRegressionTransform(c.regression, c.regressionOrder)] else []
  }

  datatype DatasetLayer = SourceLayer(source: seq<seq<Cell>>) | TransformLayer(transform: Transform)

  /** The source layer first, then each transform descriptor in order. */
  function Dataset(src: seq<seq<Cell>>, ts: seq<Transform>): (ds: seq<DatasetLayer>)
    ensures |ds| == |ts| + 1
    ensures ds[0] == SourceLayer(src)
    ensures forall k :: 0 <= k < |ts| ==> ds[k + 1] == TransformLayer(ts[k])
  {
    [SourceLayer(src)] + seq(|ts|, k requires 0 <= k < |ts| => TransformLayer(ts[k]))
  }

  /* ---------------------------------------------------------------------- */
  /* Tooltip                                                                 */

  /** What the tooltip formatter is configured with. */
  datatype TooltipSpec = TooltipSpec(
    trigger: string,
    showDelay: int,
    xField: string,
    yField: string,
    sizeField: string,
    showSize: bool
  )

  /** The hover payload: one point, or the points of several series at once. */
  datatype HoverParams = PointParams(value: seq<Cell>) | SeriesParams(values: seq<seq<Cell>>)

  /** The content of a tooltip; its HTML layout is not modelled. */
  datatype TooltipContent =
    | EmptyTooltip
    | PointTooltip(
        seriesNames: seq<Cell>,
        xLabel: string, x: Cell,
        yLabel: string, y: Cell,
        sizeLine: Option<(string, Cell)>)

  function At(value: seq<Cell>, i: nat): Cell {
    if i < |value| then value[i] else Undefined
  }

  /**
    The tooltip of a hovered point: its name components, then the x and y
    values, then the size value when sizes come from the data. A payload of
    several series renders as the empty string.
   */
  function FormatTooltip(spec: TooltipSpec, params: HoverParams): (t: TooltipContent)
    ensures params.SeriesParams? <==> t == EmptyTooltip
    ensures params.PointParams? ==>
      && t.seriesNames == (if |params.value| > NameDimension then params.value[NameDimension..] else [])
      && t.xLabel == spec.xField && t.x == At(params.value, XDimension)
      && t.yLabel == spec.yField && t.y == At(params.value, YDimension)
      && (t.sizeLine.Some? <==> spec.showSize)
      && (spec.showSize ==> t.sizeLine.value == (spec.sizeField, At(params.value, BubbleSizeDimension)))
  {
    match params
    case SeriesParams(_) => EmptyTooltip
    case PointParams(value) =>
      PointTooltip(
        if |value| > NameDimension then value[NameDimension..] else [],
        spec.xField, At(value, XDimension),
        spec.yField, At(value, YDimension),
        if spec.showSize then Some((spec.sizeField, At(value, BubbleSizeDimension))) else None)
  }

  /* ---------------------------------------------------------------------- */
  /* Assembly                                                                */

  datatype Axis = Axis(name: string)

  datatype EChartsOption = EChartsOption(
    legend: Legend,
    xAxis: Axis,
    yAxis: Axis,
    visualMap: seq<VisualMap>,
    series: seq<Series>,
    tooltip: TooltipSpec,
    dataset: seq<DatasetLayer>
  )

  /** `chartProps` with the first query's rows. */
  datatype ChartProps = ChartProps(formData: ScatterFormData, width: int, height: int, data: seq<Row>)

  datatype TransformedProps = TransformedProps(
    formData: ScatterFormData,
    width: int,
    height: int,
    echartOptions: EChartsOption
  )

  /** The plotting description of `rows` under configuration `c`. */
  function BuildOption(c: Config, rows: seq<Row>, colorFn: Cell -> Color): (o: EChartsOption)
    ensures var src := SourceDataSet(c, rows);
      && |o.dataset| == 1 + |ScatterTransformsOf(c, UniqueGroups(c, rows), SourceDataSetDimension(src))|
                          + (if c.showRegression then 1 else 0)
      && o.dataset[0] == SourceLayer(src)
    ensures |o.series| == |UniqueGroups(c, rows)| + (if c.showRegression then 1 else 0)
    ensures o.legend.show == ShowLegends(c)
    ensures o.visualMap == GetVisualMap(c, SourceDataSetDimension(SourceDataSet(c, rows)), colorFn)
  {
    var src := SourceDataSet(c, rows);
    var dimension := SourceDataSetDimension(src);
    var groups := UniqueGroups(c, rows);
    var scatterSeries := ScatterSeriesOf(c, groups, colorFn, SymbolSizePolicyOf(c, rows));
    var scatterTransforms := ScatterTransformsOf(c, groups, dimension);
    EChartsOption(
      legend := GetLegendProps(c.legendType, c.legendOrientation, ShowLegends(c), false),
      xAxis := Axis(c.xAxisTitle),
      yAxis := Axis(c.yAxisTitle),
      visualMap := GetVisualMap(c, dimension, colorFn),
      series := SeriesOf(c, scatterSeries),
      tooltip := TooltipSpec("item", 0, XField(c), YField(c), SizeField(c), c.useMetricForBubbleSize),
      dataset := Dataset(src, TransformsOf(c, scatterTransforms)))
  }

  /** `transformProps`: merge the defaults, then compile; form data and size pass through. */
  function TransformProps(props: ChartProps, legend: LegendDefaults, colorFn: Cell -> Color): (out: TransformedProps)
    ensures out.formData == props.formData && out.width == props.width && out.height == props.height
    ensures out.echartOptions == BuildOption(MergeDefaults(props.formData, legend), props.data, colorFn)
  {
    TransformedProps(
      props.formData,
      props.width,
      props.height,
      BuildOption(MergeDefaults(props.formData, legend), props.data, colorFn))
  }
}

=== FILE: transforms.dfy ===
/**
  The pure builders the scatter transform assembles its output from:
  series descriptors, dataset transform descriptors, the bubble-size
  rescale and the legend placement.

  The rendering engine evaluates the descriptors; nothing here runs a
  filter, a regression or a clustering.
 */
module Transforms {
  import opened Values
  import opened FormData

  type Color = string

  /** The bubble bounds observed in the size column (each seeded with 0). */
  datatype Bounds = Bounds(lo: int, hi: int)

  /**
    What a scatter series' `symbolSize` callback computes: either the flat
    configured bubble size, or the rescale of a point's size value from the
    observed bounds (`None` when they are NaN) to the configured range.
   */
  datatype SymbolSizePolicy =
    | FixedSize(size: int)
    | Rescaled(bounds: Option<Bounds>, outMin: int, outMax: int)

  datatype Emphasis = Emphasis(focus: string)

  datatype Series =
    | ScatterSeries(
        name: string,
        datasetIndex: int,
        color: Color,
        emphasis: Option<Emphasis>,
        showLabel: bool,
        symbolSize: SymbolSizePolicy)
    | LineSeries(name: string, datasetIndex: int, showLabel: bool)

  /** Dataset transform descriptors for the rendering engine. */
  datatype Transform =
    | Filter(dimension: int, eq: string)
    | Clustering(clusterCount: int, outputType: string, dimensions: seq<int>, outputClusterIndexDimension: int)
    | Regression(regressionMethod: RegressionMethod, order: int)

  /** The `type` string each descriptor is emitted with. */
  function TypeName(t: Transform): string {
    match t
    case Filter(_, _) => "filter"
    case Clustering(_, _, _, _) => "ecStat:clustering"
    case Regression(_, _) => "ecStat:regression"
  }

  /** Two descriptors carry the same `type` string exactly when they are of the same kind. */
  lemma TypeNameIdentifiesKind(t1: Transform, t2: Transform)
    ensures TypeName(t1) == TypeName(t2) <==>
      (t1.Filter? && t2.Filter?) || (t1.Clustering? && t2.Clustering?) || (t1.Regression? && t2.Regression?)
  {
    assert "filter" != "ecStat:clustering" && "filter" != "ecStat:regression";
    assert "ecStat:clustering"[7] != "ecStat:regression"[7];
  }

  datatype Orient = Horizontal | Vertical

  datatype Legend = Legend(
    orient: Orient,
    show: bool,
    legendType: LegendType,
    left: Option<int>,
    right: Option<int>,
    top: Option<int>,
    bottom: Option<int>
  )

  const LegendRightTopOffset := 30
  const LegendTopRightOffset := 55

  /** One scatter series reading dataset layer `datasetIndex`, coloured by its name. */
  function BuildScatterSeries(
    seriesName: string,
    datasetIndex: int,
    colorFn: Cell -> Color,
    showHighlighting: bool,
    showLabels: bool,
    symbolSize: SymbolSizePolicy
  ): (s: Series)
    ensures s.ScatterSeries? && s.name == seriesName && s.datasetIndex == datasetIndex
    ensures s.color == colorFn(Str(seriesName))
    ensures s.emphasis.Some? <==> showHighlighting
    ensures s.emphasis.Some? ==> s.emphasis.value.focus == "series"
    ensures s.showLabel == showLabels && s.symbolSize == symbolSize
  {
    ScatterSeries(
      name := seriesName,
      datasetIndex := datasetIndex,
      color := colorFn(Str(seriesName)),
      emphasis := if showHighlighting then Some(Emphasis("series")) else None,
      showLabel := showLabels,
      symbolSize := symbolSize)
  }

  /** One `filter` layer per group, in group order, each keeping the rows whose `dimension` equals the group. */
  function BuildScatterTransforms(uniqueGroups: seq<string>, dimension: int): (ts: seq<Transform>)
    ensures |ts| == |uniqueGroups|
    ensures forall i :: 0 <= i < |ts| ==> ts[i] == Filter(dimension, uniqueGroups[i])
  {
    seq(|uniqueGroups|, i requires 0 <= i < |uniqueGroups| => Filter(dimension, uniqueGroups[i]))
  }

  /** The auxiliary `Regression` line series. */
  function GetRegressionSeries(datasetIndex: int, showRegressionLabel: bool): (s: Series)
    ensures s.LineSeries? && s.name == "Regression"
    ensures s.datasetIndex == datasetIndex && s.showLabel == showRegressionLabel
  {
    LineSeries("Regression", datasetIndex, showRegressionLabel)
  }

  /** The regression descriptor: method and order handed to the statistics engine unchanged. */
  function GetRegressionTransform(regression: RegressionMethod, regressionOrder: int): (t: Transform)
    ensures TypeName(t) == "ecStat:regression"
    ensures t.Regression? && t.regressionMethod == regression && t.order == regressionOrder
  {
    Regression(regression, regressionOrder)
  }

  /**
    The single clustering layer: k-means on dimensions 0 and 1, writing each
    row's cluster index into dimension `dimensionClusterIndex`.
   */
  function GetClusteringTransform(clusterCount: int, dimensionClusterIndex: int): (ts: seq<Transform>)
    ensures |ts| == 1 && TypeName(ts[0]) == "ecStat:clustering"
    ensures ts[0].Clustering? && ts[0].clusterCount == clusterCount
    ensures ts[0].outputType == "single" && ts[0].dimensions == [0, 1]
    ensures ts[0].outputClusterIndexDimension == dimensionClusterIndex
  {
    [Clustering(clusterCount, "single", [0, 1], dimensionClusterIndex)]
  }

  /**
    Linear rescale of `value` from `[inMin, inMax]` to `[outMin, outMax]`.
    Nothing guards against an empty input range: the precondition excludes
    it, and `ScatterChart.SymbolSize` gives a non-finite size there.
   */
  function ScaleNumberToBubbleSize(value: real, inMin: real, inMax: real, outMin: real, outMax: real): (r: real)
    requires inMin != inMax
    ensures (r - outMin) * (inMax - inMin) == (value - inMin) * (outMax - outMin)
  {
    (value - inMin) * (outMax - outMin) / (inMax - inMin) + outMin
  }

  /** The rescale maps the ends of the input range to the ends of the output range. */
  lemma ScaleMapsEndpoints(inMin: real, inMax: real, outMin: real, outMax: real)
    requires inMin != inMax
    ensures ScaleNumberToBubbleSize(inMin, inMin, inMax, outMin, outMax) == outMin
    ensures ScaleNumberToBubbleSize(inMax, inMin, inMax, outMin, outMax) == outMax
  {
    var hi := ScaleNumberToBubbleSize(inMax, inMin, inMax, outMin, outMax);
    assert (hi - outMin) * (inMax - inMin) == (outMax - outMin) * (inMax - inMin);
  }

  /** Over a proper range, a larger value never gets a smaller bubble. */
  lemma ScaleIsMonotone(v1: real, v2: real, inMin: real, inMax: real, outMin: real, outMax: real)
    requires inMin < inMax && outMin <= outMax
    requires v1 <= v2
    ensures ScaleNumberToBubbleSize(v1, inMin, inMax, outMin, outMax)
         <= ScaleNumberToBubbleSize(v2, inMin, inMax, outMin, outMax)
  {
    var r1 := ScaleNumberToBubbleSize(v1, inMin, inMax, outMin, outMax);
    var r2 := ScaleNumberToBubbleSize(v2, inMin, inMax, outMin, outMax);
    assert (r2 - r1) * (inMax - inMin) == (v2 - v1) * (outMax - outMin);
    assert (v2 - v1) * (outMax - outMin) >= 0.0;
  }

  /** A value inside the input range gets a bubble inside the output range. */
  lemma ScaleStaysInRange(v: real, inMin: real, inMax: real, outMin: real, outMax: real)
    requires inMin < inMax && outMin <= outMax
    requires inMin <= v <= inMax
    ensures outMin <= ScaleNumberToBubbleSize(v, inMin, inMax, outMin, outMax) <= outMax
  {
    ScaleMapsEndpoints(inMin, inMax, outMin, outMax);
    ScaleIsMonotone(inMin, v, inMin, inMax, outMin, outMax);
    ScaleIsMonotone(v, inMax, inMin, inMax, outMin, outMax);
  }

  /**
    Legend layout: horizontal exactly for top and bottom placement, and
    pinned to the edge it is placed at; a zoomable chart moves a right
    legend down and a top legend left to clear the zoom toolbox.
   */
  function GetLegendProps(legendType: LegendType, orientation: LegendOrientation, show: bool, zoomable: bool): (l: Legend)
    ensures l.orient == Horizontal <==> orientation == Top || orientation == Bottom
    ensures l.show == show && l.legendType == legendType
    ensures orientation == Left ==> l.left == Some(0) && l.right.None? && l.top.None? && l.bottom.None?
    ensures orientation == Bottom ==> l.bottom == Some(0) && l.left.None? && l.right.None? && l.top.None?
    ensures orientation == Right ==>
      && l.right == Some(0) && l.left.None? && l.bottom.None?
      && l.top == Some(if zoomable then LegendRightTopOffset else 0)
    ensures orientation == Top ==>
      && l.top == Some(0) && l.left.None? && l.bottom.None?
      && l.right == Some(if zoomable then LegendTopRightOffset else 0)
  {
    var orient := if orientation == Top || orientation == Bottom then Horizontal else Vertical;
    var base := Legend(orient, show, legendType, None, None, None, None);
    match orientation
    case Left => base.(left := Some(0))
    case Right => base.(right := Some(0), top := Some(if zoomable then LegendRightTopOffset else 0))
    case Bottom => base.(bottom := Some(0))
    case Top => base.(top := Some(0), right := Some(if zoomable then LegendTopRightOffset else 0))
  }

  /** The side a legend is placed at. */
  function PinnedEdge(l: Legend, orientation: LegendOrientation): Option<int> {
    match orientation
    case Left => l.left
    case Right => l.right
    case Top => l.top
    case Bottom => l.bottom
  }

  /** Without zoom, the legend sits flush (offset 0) against exactly the edges it is given. */
  lemma LegendFlushAgainstItsEdge(legendType: LegendType, orientation: LegendOrientation, show: bool)
    ensures PinnedEdge(GetLegendProps(legendType, orientation, show, false), orientation) == Some(0)
    ensures var l := GetLegendProps(legendType, orientation, show, false);
      forall e :: e in [l.left, l.right, l.top, l.bottom] ==> e == None || e == Some(0)
  {
  }
}

=== FILE: values.dfy ===
/**
  Scalar values of a query result row, and the small part of JavaScript's
  value semantics the scatter transform relies on: property lookup on a
  row, truthiness, and numeric coercion of numbers, `null` and `undefined`.
  Strings always coerce to NaN here, where JavaScript would read a numeric
  string such as `"5"` as a number.
 */
module Values {

  datatype Option<+T> = None | Some(value: T)

  /** A cell of a row. `Undefined` is what reading an absent field yields. */
  datatype Cell = Num(n: int) | Str(s: string) | Null | Undefined

  /** A row of the query result: field name to cell. */
  type Row = map<string, Cell>

  /** `datum[field]`: the cell stored under `field`, or `undefined`. */
  function Lookup(row: Row, field: string): (c: Cell)
    ensures field !in row ==> c == Undefined
    ensures field in row ==> c == row[field]
  {
    if field in row then row[field] else Undefined
  }

  /** JavaScript truthiness of a cell: `0`, `''`, `null` and `undefined` are falsy. */
  predicate IsTruthy(c: Cell) {
    match c
    case Num(n) => n != 0
    case Str(s) => s != ""
    case Null => false
    case Undefined => false
  }

  /**
    Numeric coercion of a cell: `null` becomes 0, a number stays itself,
    and `undefined` becomes NaN (`None`). Strings are treated as NaN.
   */
  function ToNumber(c: Cell): (r: Option<int>)
    ensures r.Some? <==> c.Num? || c.Null?
    ensures c.Num? ==> r == Some(c.n)
    ensures c.Null? ==> r == Some(0)
  {
    match c
    case Num(n) => Some(n)
    case Null => Some(0)
    case Str(_) => None
    case Undefined => None
  }

  /** The possibly non-finite result of a JavaScript arithmetic expression. */
  datatype JsNumber = Finite(value: real) | NotFinite
}
